=== FILE: README.md ===
# Active Choices: cascade updates, value extraction and filtering in Dafny

This project models the browser-side core of the Jenkins Active Choices
plugin, plus one server-side merge. Parameters on a build form reference
each other. When a referenced parameter changes, the cascade parameters
that depend on it send their referenced values to the server. They then
re-render their choices and pass the change on to their own dependents.

HTML elements are plain records. The server's answers are sequences of
strings. The page-wide parameter registry is an explicit sequence. One
call to `update` is modelled as the trace of update calls it makes,
together with the error it throws, if any. A thrown error ends the trace
but keeps the requests already sent.

| file | module | models |
|---|---|---|
| wrappers.dfy | `Wrappers` | `Option` for a missing element or attribute; `Result` for an operation that throws |
| sequences.dfy | `Sequences` | order-keeping deletion, shared by the registry walk and the option filter |
| strings.dfy | `Strings` | the JavaScript string operations used: `endsWith`, `indexOf`, `split`, `join`, first-occurrence `replace`, `toLowerCase`, `trim` |
| pairs.dfy | `Pairs` | a name/value list put into a map in order, the last duplicate winning |
| elements.dfy | `Elements` | `getParameterValue`, `getElementValue`, `getSelectValues` of `AbstractParameter` |
| request.dfy | `Request` | the request text of `getReferencedParametersAsText`, and the server's reading of it as the server tests fix it |
| cascade.dfy | `Cascade` | `reference`, `referencesMe`, and the propagation rule of `update` |
| choices.dfy | `Choices` | `:selected` / `:disabled` suffix decoding, the SELECT refresh, row ids |
| dynamic.dfy | `Dynamic` | `DynamicReferenceParameter.update`: tag/id dispatch, what each element shows, default propagation, and the fields it reads |
| referenced.dfy | `Referenced` | `ReferencedParameter`: registration and the change handler |
| filter.dfy | `Filter` | `FilterElement`: key-up filtering, `setOriginalArray`, `clearFilterElement` |
| radio.dfy | `Radio` | `fakeSelectRadioButton` of `utils` |
| proxy.dfy | `Proxy` | `makeStaplerProxy2`: base-URL normalisation, method table, zero-argument guard |
| bootstrap.dfy | `Bootstrap` | the data-attribute parsing and proxy-factory swap of `cascade-choice-parameter.js` |
| scriptler.dfy | `Scriptler` | `ScriptlerScript`: its constructor and the variable map `eval` hands to Groovy |

Propagation terminates on any reference graph, cycles included. The proof
of `Cascade.Update` and `Cascade.FanOut` rests on the `avoidRecursion`
flag alone. An update called with `true` makes no further update. One
called with `false` makes one guarded update per dependent.

## Model

| member | source | states |
|---|---|---|
| `Elements.SelectValues` | src/main/typescript/src/AbstractParameter.ts:132-147 | one value per selected option; a string is among them iff some selected option has it as `value \|\| text` |
| `Elements.SelectValuesAppend` | src/main/typescript/src/AbstractParameter.ts:138-146 | document order is kept: the values of two option lists in a row are the values of the first followed by those of the second |
| `Elements.ElementValue` | src/main/typescript/src/AbstractParameter.ts:114-123 | an array exactly for a SELECT, with one entry per selected option; a checkbox or radio gives its value when checked and `""` otherwise; anything else gives its value |
| `Elements.ElementValueContributions` | src/main/typescript/src/AbstractParameter.ts:62-80 | how an element's `getElementValue` enters the request text: a SELECT contributes its selected values, another element named `value` its value; a checkbox or radio named `value` contributes its value iff it is checked; a SELECT with nothing selected contributes one `""` |
| `Elements.ParameterValue` | src/main/typescript/src/AbstractParameter.ts:54-103 | fails iff the element is missing; an element named `value` with a string value gives it; a DIV gives the comma join of its descendants' values; an INPUT of type `file` with a chosen file, not named `value`, gives the file's name; any other INPUT named other than `""`/`name` gives its value; an INPUT named `""` or `name` gives `""`; any other tag gives `""` |
| `Elements.CollectedSpec` | src/main/typescript/src/AbstractParameter.ts:70-82 | the DIV branch (corrected) collects exactly the truthy values of the `[name="value"]` descendants, each rendered as text |
| `Elements.ParameterValueAsWritten` | src/main/typescript/src/AbstractParameter.ts:54-103 | fails iff the element is missing; agrees with `Elements.ParameterValue` on every element but a DIV; a DIV not named `value` whose own value is falsy gives `""` whatever its descendants hold |
| `Elements.DivAsWrittenIgnoresDescendants` | src/main/typescript/src/AbstractParameter.ts:76-80 | a DIV around a checked checkbox `123` gives `""` as written and `123` as corrected |
| `Elements.SelectNamedValueYieldsEmpty` | src/main/typescript/src/AbstractParameter.ts:62-68 | a SELECT named `value` falls through every branch and gives `""` |
| `Elements.ParameterValueExamples` | src/main/typescript/src/CascadeParameter.spec.ts:81-198 | the repository's request-text cases: an OPTION, a named INPUT, an INPUT named `name`, an unknown tag, a DIV with a two-selected SELECT giving `1,2` |
| `Request.SplitAtEquals` | src/test/java/org/biouno/unochoice/issue38532/TestParameterValuesWithEquals.java:81-93 | the name part never holds `=`; a segment with `=` is exactly name, `=`, value, so a value keeps its own `=` |
| `Request.Encode` | src/main/typescript/src/CascadeParameter.ts:62-70 | the text is empty iff there are no pairs; a single pair is its own `name=value` segment, with no separator |
| `Request.Decode` | src/test/java/org/biouno/unochoice/TestCascadeChoiceParameter.java:81-99 | the empty text reads as no pairs; any other text gives one pair per separator-cut piece; no name read holds `=` |
| `Request.DecodeMap` | src/test/java/org/biouno/unochoice/TestCascadeChoiceParameter.java:93-99 | the empty request text reads as no parameters |
| `Request.DecodeEncode` | src/main/typescript/src/CascadeParameter.ts:62-70 | reading back the request text gives back the name/value pairs, in order, when no name holds `=` and no separator match straddles a segment end |
| `Request.SeparatorFreeIsNotEnough` | src/main/typescript/src/CascadeParameter.ts:67-69 | names without `=` and values without the separator are not enough: `a=x__LESEP` followed by `b=y` is cut inside the first value |
| `Request.ThreePairsDecoding` | src/test/java/org/biouno/unochoice/TestCascadeChoiceParameter.java:81-91 | the server test's text reads as its three pairs, the last with an empty value |
| `Request.ThreeParametersExample` | src/test/java/org/biouno/unochoice/TestCascadeChoiceParameter.java:81-91 | the server test's text becomes the map `param001→A, param002→B, param003→""` |
| `Request.ValueWithEqualsExample` | src/test/java/org/biouno/unochoice/issue38532/TestParameterValuesWithEquals.java:81-93 | `LIST=A=1` reads as the single pair `LIST`, `A=1` |
| `Pairs.FromPairs` | src/main/java/org/biouno/unochoice/model/ScriptlerScript.java:61-66 | the map's keys are the listed names and each name maps to the value of its last pair |
| `Cascade.Reference` | src/main/typescript/src/CascadeParameter.ts:72-74 | the referenced parameter is appended once, at the end, and nothing else of the cascade parameter changes |
| `Cascade.FindNamed` | src/main/typescript/src/CascadeParameter.ts:89-91 | the first entry with the name, or none when no entry has it |
| `Cascade.ReferencesMe` | src/main/typescript/src/CascadeParameter.ts:85-92 | true iff the other parameter exists and one of its referenced parameters has this name |
| `Cascade.Dependents` | src/main/typescript/src/CascadeParameter.ts:468-476 | the registered parameters that reference this one, in registration order (a subsequence of the registry), each as many times as it is registered; no others |
| `Cascade.ReferencedValues` | src/main/typescript/src/CascadeParameter.ts:62-69 | throws iff some referenced element is missing; otherwise one pair per referenced parameter, in order, its name with its `getParameterValue` |
| `Cascade.RequestText` | src/main/typescript/src/CascadeParameter.ts:62-70 | throws iff some referenced element is missing |
| `Cascade.RequestTextRoundTrip` | src/main/typescript/src/CascadeParameter.ts:62-70 | the server reads back one pair per referenced parameter, in registration order, its name with its value |
| `Cascade.Update` | src/main/typescript/src/CascadeParameter.ts:113-482 | a missing own or referenced element throws with this parameter's name before any request; otherwise the first call is this one, carrying its request text; guarded, it is the only call; unguarded, it is followed by the sequential guarded updates of the dependents |
| `Cascade.AllUpdatableSpec` | src/main/typescript/src/CascadeParameter.ts:468-480 | the fan-out's success condition is that every dependent can be updated |
| `Cascade.SequentialSpec` | src/main/typescript/src/CascadeParameter.ts:468-476 | a run of guarded updates throws iff some parameter cannot be updated; call `i` is the guarded update of parameter `i`; all are made when nothing throws; a throw names the parameter right after the last call made |
| `Cascade.UpdateOutcome` | src/main/typescript/src/CascadeParameter.ts:113-482 | the update throws iff its own request or, unguarded, a dependent's fails; a throw after the first request names the dependent right after the last one that sent |
| `Cascade.UpdateCalls` | src/main/typescript/src/CascadeParameter.ts:113-482 | the first call is the update's own; guarded, it is the only one; unguarded, call `i` is the guarded update of dependent `i - 1`, all of them when nothing throws |
| `Cascade.FanOut` | src/main/typescript/src/CascadeParameter.ts:468-480 | the guarded updates of the dependents, in registration order, until the first one that throws |
| `Cascade.FirstFailureNamesOwner` | src/main/typescript/src/AbstractParameter.ts:55-58 | the error for a missing referenced element names the parameter reading it |
| `Cascade.DefaultAvoidRecursion` | src/main/typescript/src/CascadeParameter.ts:113 | `update()` with no argument is guarded for a cascade choice parameter and unguarded for a dynamic reference parameter (`DynamicReferenceParameter.ts` line 34) |
| `Cascade.DefaultUpdateIsGuarded` | src/main/typescript/src/CascadeParameter.ts:113-482 | a cascade choice parameter's `update()` sends its own request and starts no other |
| `Cascade.PropagationBound` | src/main/typescript/src/CascadeParameter.ts:468-480 | every update, one that throws included, makes at most one call more than there are registered parameters, and every call after the first is guarded |
| `Cascade.MutualReferenceTerminates` | src/main/typescript/src/CascadeParameter.spec.ts:222-247 | two parameters referencing each other: the unguarded update of the first makes one guarded update of the second and stops |
| `Cascade.ThrowKeepsEarlierRequests` | src/main/typescript/src/CascadeParameter.ts:113-121 | with dependents `b` and then `c` of `a`, where `c` has no element: `a`'s request and `b`'s guarded one are made, and then the update throws naming `c` |
| `Choices.StripMarks` | src/main/typescript/src/CascadeParameter.ts:138-154 | never lengthens a choice; shortens it iff it carries a selected or disabled suffix |
| `Choices.StripOneLayer` | src/main/typescript/src/CascadeParameter.ts:140-147 | each of the four suffixes comes off a clean choice completely, and the selected/disabled flags are those the suffix spells |
| `Choices.StripCanRemoveTwoLayers` | src/main/typescript/src/CascadeParameter.ts:140-147 | a choice that is not clean can lose two layers: `a:selected:disabled:selected` becomes `a` |
| `Choices.MarkedIndices` | src/main/typescript/src/CascadeParameter.ts:138-147 | the index list is strictly increasing, within range, and holds `i` iff value `i` carries that kind of suffix |
| `Choices.StripPrefix` | src/main/typescript/src/CascadeParameter.ts:148-153 | the first `n` strings are cleaned and the rest kept |
| `Choices.DecodeChoices` | src/main/typescript/src/CascadeParameter.ts:138-154 | values and keys cleaned (keys past the values untouched); selected and disabled index lists strictly increasing, within range, and determined by the values alone |
| `Choices.RenderSelect` | src/main/typescript/src/CascadeParameter.ts:164-190 | the old options go; one option per value, text value `i`, value key `i` (`undefined` when absent), selected/disabled iff `i` is listed; a SELECT whose `multiple` attribute reads exactly `multiple` gets size `min(n, 10)`, any other gets no size |
| `Choices.RefreshSelect` | src/main/typescript/src/CascadeParameter.ts:138-190 | option `i` shows value `i` without its suffix and is selected (disabled) iff the server's value `i` carries a selected (disabled) suffix; its value is key `i` without its suffix, or `undefined` past the keys; the size rule is `RenderSelect`'s |
| `Choices.RowId` | src/main/typescript/src/CascadeParameter.ts:217-218 | the `replace` only swaps a character, so the id is exactly as long as `ecp_`, the random name, `_` and the index's digits together |
| `Choices.RowIdShape` | src/main/typescript/src/CascadeParameter.ts:217-218 | the row id is `ecp_`, the random name with its first space made `_`, `_`, and the index in decimal |
| `Dynamic.Dispatch` | src/main/typescript/src/DynamicReferenceParameter.ts:45-84 | OL before UL before an `inputElement_` id before a `formattedHtml_` id; anything else is left alone |
| `Dynamic.RefreshReadsOwnAnswer` | src/main/typescript/src/DynamicReferenceParameter.ts:45-84 | each branch reads only its own answer: what a list shows does not depend on the text answer, what an input box or formatted HTML shows does not depend on the values, and an unhandled element is left alone whatever the answers |
| `Dynamic.Refresh` | src/main/typescript/src/DynamicReferenceParameter.ts:45-84 | a list gets exactly the values as items; an id containing `inputElement_` gets the raw answer as its value, even when it also contains `formattedHtml_`; otherwise an id containing `formattedHtml_` gets the parsed answer; nothing else changes |
| `Dynamic.RefreshAsWritten` | src/main/typescript/src/DynamicReferenceParameter.ts:54-73 | an OL gets one item per value, each the comma join of all values; every other element is shown as by `Dynamic.Refresh` |
| `Dynamic.RefreshAgreement` | src/main/typescript/src/DynamicReferenceParameter.ts:54-73 | as written and corrected agree iff the element is not an OL or has at most one value; as written every OL item is the whole comma-joined array |
| `Dynamic.OrderedListRepeatsTheArray` | src/main/typescript/src/DynamicReferenceParameter.ts:54-57 | an OL answered with `a`, `b` gets items `a,b`, `a,b` as written and `a`, `b` as corrected |
| `Dynamic.DefaultUpdatePropagates` | src/main/typescript/src/DynamicReferenceParameter.ts:34-100 | with no argument the update is unguarded; when nothing throws it makes its own call and then one call per dependent |
| `Dynamic.UpdateAsWritten` | src/main/typescript/src/DynamicReferenceParameter.ts:34-36 | the update reads the `paramElement` and `cascadeParameters` fields: with `paramElement` unassigned it throws before any request; with `cascadeParameters` unassigned it makes at most its own call |
| `Dynamic.UpdateWithFieldsSet` | src/main/typescript/src/DynamicReferenceParameter.ts:34-98 | with both fields holding the element and the registry, the update is the cascade parameter's update |
| `Dynamic.ConstructedUpdateThrows` | src/main/typescript/src/DynamicReferenceParameter.ts:30-36 | as constructed, a dynamic parameter referencing a cascade parameter that references it throws on update; with the fields set the same update makes two calls |
| `Referenced.Register` | src/main/typescript/src/ReferencedParameter.ts:44-63 | the new parameter goes to the end of its cascade parameter's list, which then references it |
| `Referenced.OnChange` | src/main/typescript/src/ReferencedParameter.ts:47-60 | an event naming this parameter starts nothing; any other starts one unguarded update of the cascade parameter, which throws iff the cascade parameter or one of its dependents cannot be read; when the cascade parameter can be read, its own call comes first, every later call is guarded, and there are at most `1 + registered` calls |
| `Referenced.OnChangeExamples` | src/main/typescript/src/ReferencedParameter.ts:47-60 | the handler's two cases: a `jQuery.Event` carrying this parameter's name starts nothing; an event from `anything` starts the cascade parameter's unguarded update |
| `Referenced.TriggerDataIsNoSelfEvent` | src/main/typescript/src/ReferencedParameter.spec.ts:50-54 | an event triggered with the name only as handler data carries no `parameterName`, so it is no self event and starts the cascade parameter's unguarded update |
| `Filter.MatchKey` | src/main/typescript/src/FilterElement.ts:112-125 | an INPUT is matched on its `alt` attribute when that is set, else on its value; any other option on its inner HTML |
| `Filter.Matches` | src/main/typescript/src/FilterElement.ts:112-125 | the empty text matches every option; a text longer than the option's match key matches nothing |
| `Filter.Survivors` | src/main/typescript/src/FilterElement.ts:112-127 | an option survives iff it is an original option that matches the text, and a matching option survives as many times as it is listed; never more than the originals |
| `Filter.SurvivorsAreSubsequence` | src/main/typescript/src/FilterElement.ts:112-127 | the survivors keep the original order |
| `Filter.EmptyTextKeepsAll` | src/main/typescript/src/FilterElement.ts:109-127 | an empty text keeps every option |
| `Filter.SurvivorsIdempotent` | src/main/typescript/src/FilterElement.ts:112-127 | filtering the survivors again with the same text changes nothing |
| `Filter.NarrowingRefilters` | src/main/typescript/src/FilterElement.ts:108-127 | typing more characters only narrows: filtering the survivors with the longer text equals filtering the originals with it |
| `Filter.Keyup` | src/main/typescript/src/FilterElement.ts:104-331 | ignored iff the text is non-empty and shorter than the filter length; otherwise the survivors of the lower-cased text, a SELECT rebuilt with one option per survivor copying value and inner HTML, and a `Filter Element Event` change event |
| `Filter.KeyupIgnoresCase` | src/main/typescript/src/FilterElement.ts:108 | lower-casing the box's text changes nothing |
| `Filter.ClearFilterElement` | src/main/typescript/src/FilterElement.ts:354-356 | the box is emptied; the options and the filter length stay |
| `Filter.SetOriginalArray` | src/main/typescript/src/FilterElement.ts:344-347 | the options are replaced and the box is emptied |
| `Filter.KeyupAfterReset` | src/main/typescript/src/FilterElement.ts:344-356 | after new options are handed over, the next key-up shows all of them |
| `Radio.FindById` | src/main/typescript/src/utils.ts:52 | the first element with the id in document order, or none when no element has it; the empty id finds nothing |
| `Radio.FakeSelectRadioButton` | src/main/typescript/src/utils.ts:51-69 | no change when no element has the id; only names change; elements of another class are untouched; an INPUT of the class is named `value` if it shares the chosen element's parent and `""` otherwise; any other element of the class is named `value` if it shares that parent and keeps its name otherwise |
| `Radio.FindByIdReadsIds` | src/main/typescript/src/utils.ts:52 | the lookup depends on the ids only |
| `Radio.FakeSelectIdempotent` | src/main/typescript/src/utils.ts:51-69 | choosing the same button twice is choosing it once |
| `Radio.FakeSelectExamples` | src/main/typescript/src/utils.spec.ts:46-69 | the repository's two cases: `parameter2` unnames the first radio and names the second `value`; an unknown id changes nothing; so does the empty id |
| `Proxy.NormaliseBase` | src/main/typescript/src/Proxy.ts:74 | ends with `/`; is the input with at most one character added; equals the input iff it already ended with `/` |
| `Proxy.NormaliseIdempotent` | src/main/typescript/src/Proxy.ts:74 | normalising twice is normalising once |
| `Proxy.MakeStaplerProxy2` | src/main/typescript/src/Proxy.ts:73-80 | one method per listed name, each posting to the normalised base followed by its name, with the crumb |
| `Proxy.EndpointsDistinct` | src/main/typescript/src/Proxy.ts:42 | different methods post to different URLs |
| `Proxy.Invoke` | src/main/typescript/src/Proxy.ts:36-42 | throws iff called without arguments; otherwise posts the arguments to the method's URL |
| `Proxy.InvokeGenerated` | src/main/typescript/src/Proxy.ts:36-42 | every method of a generated proxy exists under its name and, called with arguments, posts them with the crumb to the normalised base followed by that name |
| `Proxy.DoUpdateEndpoint` | src/main/typescript/src/Proxy.ts:73-80 | `doUpdate` with the request text posts it to the base followed by `doUpdate` |
| `Bootstrap.ReferencedParameterList` | src/main/resources/org/biouno/unochoice/CascadeChoiceParameter/cascade-choice-parameter.js:9-10 | one entry more than the attribute has commas; no entry holds a comma or starts or ends with white space; a missing attribute gives `[""]` |
| `Bootstrap.TrimPiece` | src/main/resources/org/biouno/unochoice/CascadeChoiceParameter/cascade-choice-parameter.js:10 | trimming never adds a comma or lengthens |
| `Bootstrap.ListJoinsBack` | src/main/resources/org/biouno/unochoice/CascadeChoiceParameter/cascade-choice-parameter.js:10 | when no name has white space around it, the list joined by commas is the attribute |
| `Bootstrap.ReferencedParameterListExample` | src/main/resources/org/biouno/unochoice/CascadeChoiceParameter/cascade-choice-parameter.js:10 | `a, b` gives `a` and `b` |
| `Bootstrap.Filterable` | src/main/resources/org/biouno/unochoice/CascadeChoiceParameter/cascade-choice-parameter.js:11 | a missing attribute leaves filtering off; a present one turns it on iff its text is exactly `true` |
| `Bootstrap.FilterableExamples` | src/main/resources/org/biouno/unochoice/CascadeChoiceParameter/cascade-choice-parameter.js:11 | only the exact text `true` turns filtering on |
| `Bootstrap.Install` | src/main/resources/org/biouno/unochoice/CascadeChoiceParameter/cascade-choice-parameter.js:1-4 | a host factory is parked and replaced by `makeStaplerProxy2`; without one nothing changes |
| `Bootstrap.Restore` | src/main/resources/org/biouno/unochoice/CascadeChoiceParameter/cascade-choice-parameter.js:17-20 | with both a factory and a parked one, the parked one returns and the slot is deleted; otherwise nothing changes |
| `Bootstrap.SwapAndRestore` | src/main/resources/org/biouno/unochoice/CascadeChoiceParameter/cascade-choice-parameter.js:1-20 | during rendering proxies come from `makeStaplerProxy2` exactly when the host has a factory; afterwards the host's factory is back, the slot gone, and a page without a parked factory ends as it began |
| `Scriptler.NewScriptlerScript` | src/main/java/org/biouno/unochoice/model/ScriptlerScript.java:58-67 | a null list gives no parameters; otherwise one entry per listed name, holding the value of its last occurrence |
| `Scriptler.EvaledParameters` | src/main/java/org/biouno/unochoice/model/ScriptlerScript.java:91-106 | with UI parameters the variables are those of the environment, the UI and the script; without, of the environment and the script |
| `Scriptler.Precedence` | src/main/java/org/biouno/unochoice/model/ScriptlerScript.java:93-106 | a script parameter wins, expanded against the UI parameters when there are any; then a UI parameter; then the environment |
| `Scriptler.Eval` | src/main/java/org/biouno/unochoice/model/ScriptlerScript.java:91-107 | without UI parameters the script runs on the environment overlaid with its own parameters, unexpanded |
| `Scriptler.NoUiParameters` | src/main/java/org/biouno/unochoice/model/ScriptlerScript.java:83-85 | `eval(project)` is `eval(project, null)`, which is `eval` with an empty UI map: the script's parameters go in unexpanded |

## Left out

- Rendering of the TABLE and DIV checkbox/radio layouts, heights and CSS classes (`CascadeParameter.ts` lines 199-461, `FilterElement.ts` lines 138-326): only the row id formula is modelled.
- `FilterElement.initFilter`: the DOM walk that fills the stored options is not modelled. Its SELECT branch calls `concat` and discards the result, so it stores no options.
- Filter matching uses `String.prototype.match`, a regular expression. The model matches a literal substring, so texts with regular-expression metacharacters would behave differently.
- JSON: `JSON.parse` of the server's answer and `JSON.stringify` of non-string entries. Answers are already-decoded sequences of strings. The formatted-HTML parse is an uninterpreted function parameter.
- The AJAX call, crumb header and callback invocation of the generated proxy methods: only the guard and the request's URL, crumb and arguments are modelled.
- `getChoicesForUI` and `getChoicesAsStringForUI` are not modelled as calls: their answers are inputs of the refresh functions.
- `setTimeout` and the loading indicator of the change handler: the deferred update is modelled as a direct call.
- `console.log`.
- The `fakeSelectRadioButton` method of `AbstractParameter`: a divergent, unused copy of the `utils` function.
- The file-input branch of `getParameterValue` is reduced to an optional first file name.
- `SEPARATOR` comes from a constants module that is not part of this model. The value `__LESEP__` from the server tests is used.
- The global registry `UnoChoice.cascadeParameters` and the dynamic parameter's own list are passed in as a sequence.
- The server's `doUpdate` decoder is not part of this model. It is modelled as the server tests fix it: cut at every separator, then each segment at its first `=`. A segment without `=` is read as a name with an empty value, which is an assumption.
- `Choices.StripOneLayer`: states one-layer removal only for clean choices, which do not themselves end in a suffix. For other choices the two replacement chains can remove more (`Choices.StripCanRemoveTwoLayers`).
- `Strings.ToLower` and `Strings.Trim` cover ASCII letters and the common white-space characters only, not all of Unicode.
- `parseInt` of the filter length: the length is taken as an integer.
- Groovy evaluation, `Utils.getSystemEnv` and `Util.replaceMacro`: the environment is a parameter, and the expansion and the script run are uninterpreted function parameters.
- `ScriptableParameter` and the descriptor of `ScriptlerScript`: host-framework plumbing.
- jQuery's default selectedness of a SELECT's first option: options carry an explicit `selected` flag.
- `DynamicReferenceParameter`: its constructor assigns neither of the fields `update` reads (see Findings). `Dynamic.UpdateAsWritten` models the read; the rest of the model passes the element and the registry in.
- The four `ReferencedParameter` overrides that only throw (`getParameterValue`, `getElementValue`, `getSelectValues`, `fakeSelectRadioButton`, `ReferencedParameter.ts` lines 65-79): no modelled path calls them on a referenced parameter.
- `Radio.FindById`: jQuery reads the id as a CSS selector, so ids holding `.`, `:`, a space or other selector characters select differently; and `$('#')` throws a syntax error before any name changes, where the model finds nothing and changes nothing.
- `Referenced.OnChange`: the handler's `e.stopImmediatePropagation()` on a self event, which keeps the element's other change handlers from running, is not modelled.
- `Radio.FakeSelectRadioButton`: an element without a class attribute is read as having class `""`. With an empty class name the source's selector `input[class=""]` does not match an INPUT that has no class attribute, so that INPUT keeps its name, where the model blanks it. The source's callers pass the parameter name as the class.
- `Filter.Keyup`: the source's length guard counts UTF-16 code units; the model counts characters.
- `Choices.RenderSelect`: a bare `multiple` attribute reads as `""`, so such a SELECT (the repository's own `<select name="value" multiple>` fixture) gets no size, as the code's exact comparison with `'multiple'` decides.
- `Choices.RenderSelect`: the size is kept as the number `min(n, 10)`; the source stores it as a string with a `px` suffix.

## Findings

| source | as written | input that shows it | evidently intended | confidence | as-written member | corrected member |
|---|---|---|---|---|---|---|
| src/main/typescript/src/AbstractParameter.ts:76-80 | the loop over the `[name="value"]` descendants of a DIV reads the DIV itself (`this.getElementValue($element)`) on every iteration | a DIV holding one checked checkbox named `value` with value `123` gives `""` | the comma join of the descendants' values, `123`, as the class comment and the repository's own request-text tests expect | high; not executed | `Elements.DivAsWrittenIgnoresDescendants` | `Elements.ParameterValue` |
| src/main/typescript/src/DynamicReferenceParameter.ts:54-57 | each `<li>` of an ordered list gets the whole array (`li.innerHTML = newValues`), rendered as its comma join | an OL answered with `a`, `b` shows the items `a,b` and `a,b` | one value per item, `a` and `b`, as the unordered-list branch does | high; not executed | `Dynamic.OrderedListRepeatsTheArray` | `Dynamic.Refresh` |
| src/main/typescript/src/DynamicReferenceParameter.ts:30-36 | `update` reads `this.paramElement` and `this.cascadeParameters`, but the constructor hands both to a superclass that stores neither, so both read `undefined`; `this.paramElement.get(0)` then throws a `TypeError` | any dynamic parameter, for example one referenced by a cascade parameter that it references, throws on its first update, before its request | read the element `$element` and the registry the constructor was given, as `CascadeParameter.update` does | medium; not executed | `Dynamic.ConstructedUpdateThrows` | `Dynamic.DefaultUpdatePropagates` |
| src/main/typescript/src/ReferencedParameter.spec.ts:50-54 | the self-event test triggers `trigger('change', { parameterName: ref.paramName })`; jQuery hands that object to the handler as an extra argument, so the event has no `parameterName` and the handler schedules `update(false)`; the test passes only because it asserts before the `setTimeout(…, 0)` fires | the test itself: `some-name` triggered with its own name as data | trigger `jQuery.Event('change', { parameterName: ref.paramName })`, which the handler skips, as the filter does at `FilterElement.ts` line 329 | high; not executed | `Referenced.TriggerDataIsNoSelfEvent` | `Referenced.OnChangeExamples` |

=== FILE: bootstrap.dfy ===
/** Page bootstrap of a cascade choice parameter: reading the data
    attributes of its data holder, and swapping the host's proxy factory for
    `makeStaplerProxy2` while the page's inline scripts run. */
module Bootstrap {
  import opened Wrappers
  import opened Strings

  /** `(referencedParameters || '').split(',').map(trim)`; a missing
      attribute reads as `''`. */
  function ReferencedParameterList(attr: Option<string>): (r: seq<string>)
    ensures |r| == Count(attr.GetOr(""), ',') + 1
    ensures forall i :: 0 <= i < |r| ==> ',' !in r[i]
    ensures forall i :: 0 <= i < |r| ==> Trimmed(r[i])
    ensures attr.None? ==> r == [""]
  {
    TrimAll(SplitOnChar(attr.GetOr(""), ','))
  }

  /** Every piece trimmed, in order. */
  function TrimAll(pieces: seq<string>): (r: seq<string>)
    decreases |pieces|
    ensures |r| == |pieces|
    ensures forall i :: 0 <= i < |r| ==> r[i] == TrimPiece(pieces[i])
  {
    if |pieces| == 0 then [] else [TrimPiece(pieces[0])] + TrimAll(pieces[1..])
  }

  /** Trimming a piece keeps it free of commas. */
  function TrimPiece(p: string): (r: string)
    ensures ',' !in p ==> ',' !in r
    ensures Trimmed(r)
    ensures |r| <= |p|
  {
    var r := Trim(p);
    assert forall c :: c in r ==> c in p;
    r
  }

  /** When no name has white space around it, the list joins back to the
      attribute. */
  lemma ListJoinsBack(attr: string)
    requires forall i :: 0 <= i < |SplitOnChar(attr, ',')| ==> Trim(SplitOnChar(attr, ',')[i]) == SplitOnChar(attr, ',')[i]
    ensures Join(ReferencedParameterList(Some(attr)), [',']) == attr
  {
    var pieces := SplitOnChar(attr, ',');
    assert ReferencedParameterList(Some(attr)) == pieces;
    JoinSplitOnChar(attr, ',');
  }

  lemma SplitExample()
    ensures SplitOnChar("a, b", ',') == ["a", " b"]
  {
    assert SplitOnChar("", ',') == [""];
    assert "b"[1..] == "" && ['b'] + "" == "b" && [""][1..] == [];
    assert SplitOnChar("b", ',') == ["b"];
    assert " b"[1..] == "b" && [' '] + "b" == " b" && ["b"][1..] == [];
    assert SplitOnChar(" b", ',') == [" b"];
    assert ", b"[1..] == " b";
    assert SplitOnChar(", b", ',') == ["", " b"];
    assert "a, b"[1..] == ", b" && ['a'] + "" == "a" && ["", " b"][1..] == [" b"];
  }

  lemma TrimLeadingSpace()
    ensures Trim(" b") == "b"
  {
    assert " b"[1..] == "b";
    assert TrimStart(" b") == "b";
    assert "b"[..0] == "";
    assert TrimEnd("b") == "b";
  }

  lemma TrimNothing()
    ensures Trim("a") == "a"
  {
    assert TrimStart("a") == "a";
    assert TrimEnd("a") == "a";
  }

  /** The attribute of the repository's example, with spaces after commas. */
  lemma ReferencedParameterListExample()
    ensures ReferencedParameterList(Some("a, b")) == ["a", "b"]
  {
    SplitExample();
    ListOfTwo("a, b", "a", " b");
    TrimNothing();
    TrimLeadingSpace();
  }

  /** An attribute cut into two pieces lists the two pieces trimmed. */
  lemma ListOfTwo(attr: string, x: string, y: string)
    requires SplitOnChar(attr, ',') == [x, y]
    ensures ReferencedParameterList(Some(attr)) == [Trim(x), Trim(y)]
  {
  }

  /** `dataset.filterable === "true"`. */
  predicate Filterable(attr: Option<string>)
    ensures attr.None? ==> !Filterable(attr)
    ensures attr.Some? ==> (Filterable(attr) <==> attr.value == "true")
  {
    attr == Some("true")
  }

  /** Only the exact lower-case text turns filtering on. */
  lemma FilterableExamples()
    ensures Filterable(Some("true"))
    ensures !Filterable(Some("TRUE")) && !Filterable(Some("True")) && !Filterable(Some("1"))
    ensures !Filterable(Some("")) && !Filterable(None)
  {
  }

  /** The proxy factories the page can hold: the host's own, and
      `makeStaplerProxy2`. */
  datatype Factory = HostFactory(id: nat) | StaplerProxy2

  /** `window.makeStaplerProxy` and the temporary `__old__makeStaplerProxy` slot. */
  datatype Window = Window(factory: Option<Factory>, saved: Option<Factory>)

  /** Before the page renders: if the host has a factory, it is parked in
      the slot and replaced with `makeStaplerProxy2`. */
  function Install(w: Window): (r: Window)
    ensures r.factory.Some? <==> w.factory.Some?
    ensures w.factory.Some? ==> r.factory == Some(StaplerProxy2) && r.saved == w.factory
    ensures w.factory.None? ==> r == w
  {
    if w.factory.Some? then Window(Some(StaplerProxy2), w.factory) else w
  }

  /** On `DOMContentLoaded`, once every parameter is rendered: if both the
      factory and the slot are set, the parked factory comes back and the
      slot is deleted. */
  function Restore(w: Window): (r: Window)
    ensures r.factory.Some? <==> w.factory.Some?
    ensures w.factory.Some? && w.saved.Some? ==> r.factory == w.saved && r.saved.None?
    ensures w.factory.None? || w.saved.None? ==> r == w
  {
    if w.factory.Some? && w.saved.Some? then Window(w.saved, None) else w
  }

  /** While the page's scripts run, proxies are made by `makeStaplerProxy2`
      exactly when the host had a factory; afterwards the host's factory is
      back and the slot is gone. A page without the slot ends as it began. */
  lemma SwapAndRestore(w: Window)
    ensures Install(w).factory == (if w.factory.Some? then Some(StaplerProxy2) else None)
    ensures Restore(Install(w)).factory == w.factory
    ensures w.factory.Some? ==> Restore(Install(w)).saved.None?
    ensures w.saved.None? ==> Restore(Install(w)) == w
  {
  }
}

=== FILE: cascade.dfy ===
/** `CascadeParameter`: the parameters a cascade parameter references, the
    request text built from them, the dependency test `referencesMe`, and
    the propagation rule of `update`. An update is recorded as a trace of
    the update calls it makes; `update(false)` fans out exactly one level,
    calling `update(true)` on each registered parameter that references it,
    and `update(true)` calls no further update, so propagation terminates
    even when the references form a cycle. */
module Cascade {
  import opened Wrappers
  import opened Strings
  import opened Elements
  import opened Request
  import opened Sequences

  /** A `ReferencedParameter` as its cascade parameter sees it. */
  datatype RefParam = RefParam(name: string, element: Option<Element>)

  /** The two classes whose `update` this model covers. */
  datatype Kind = CascadeChoice | DynamicReference

  datatype Param = Param(kind: Kind, name: string, element: Option<Element>, randomName: string, refs: seq<RefParam>)

  /** One `update(avoidRecursion)` call and the request text it sent with `doUpdate`. */
  datatype Call = Call(name: string, avoidRecursion: bool, request: string)

  /** What an `update` leaves behind: the `doUpdate` requests it and the
      updates it started sent, in order, and the error it threw, if any. A
      throw does not take back the requests already sent. */
  datatype Trace = Trace(calls: seq<Call>, thrown: Option<Error>)

  /** `reference`: the referenced parameter goes to the end of the list. */
  function Reference(p: Param, r: RefParam): (q: Param)
    ensures |q.refs| == |p.refs| + 1 && q.refs[..|p.refs|] == p.refs && q.refs[|p.refs|] == r
    ensures q.(refs := p.refs) == p
  {
    p.(refs := p.refs + [r])
  }

  /** `Array.prototype.find` on the parameter names: the first entry named `name`. */
  function FindNamed(refs: seq<RefParam>, name: string): (r: Option<nat>)
    decreases |refs|
    ensures r.Some? ==> r.value < |refs| && refs[r.value].name == name
    ensures r.Some? ==> forall j :: 0 <= j < r.value ==> refs[j].name != name
    ensures r.None? ==> forall i :: 0 <= i < |refs| ==> refs[i].name != name
  {
    if |refs| == 0 then None
    else if refs[0].name == name then Some(0)
    else
      match FindNamed(refs[1..], name)
      case None => None
      case Some(k) => Some(k + 1)
  }

  /** `referencesMe`: whether `other` exists and lists a parameter named `me`. */
  function ReferencesMe(me: string, other: Option<Param>): (r: bool)
    ensures r <==> other.Some? && exists i :: 0 <= i < |other.value.refs| && other.value.refs[i].name == me
  {
    if other.None? || |other.value.refs| == 0 then false
    else FindNamed(other.value.refs, me).Some?
  }

  /** The registered parameters that reference `me`, in registration order:
      the registry with every other parameter deleted, each referencing entry
      kept as often as it is registered. */
  function Dependents(me: string, reg: seq<Param>): (r: seq<Param>)
    decreases |reg|
    ensures |r| <= |reg|
    ensures Subsequence(r, reg)
    ensures forall q {:trigger multiset(r)[q]} :: multiset(r)[q] == if ReferencesMe(me, Some(q)) then multiset(reg)[q] else 0
    ensures forall q :: q in r <==> q in reg && ReferencesMe(me, Some(q))
  {
    if |reg| == 0 then []
    else
      var rest := Dependents(me, reg[1..]);
      assert reg == [reg[0]] + reg[1..];
      assert multiset(reg) == multiset{reg[0]} + multiset(reg[1..]);
      if ReferencesMe(me, Some(reg[0])) then
        assert multiset([reg[0]] + rest) == multiset{reg[0]} + multiset(rest);
        SubsequenceKeep(reg[0], rest, reg[1..]);
        [reg[0]] + rest
      else
        SubsequenceDrop(reg[0], rest, reg[1..]);
        rest
  }

  /** The name/value pairs of the referenced parameters; the first missing
      element throws, with the cascade parameter's own name in the message. */
  function ReferencedValues(owner: string, refs: seq<RefParam>): (r: Result<seq<(string, string)>>)
    decreases |refs|
    ensures r.Failure? <==> exists i :: 0 <= i < |refs| && refs[i].element.None?
    ensures r.Success? ==> |r.value| == |refs|
    ensures r.Success? ==> forall i :: 0 <= i < |refs| ==>
              r.value[i] == (refs[i].name, ParameterValue(owner, refs[i].element).value)
  {
    if |refs| == 0 then Success([])
    else
      var v :- ParameterValue(owner, refs[0].element);
      var rest :- ReferencedValues(owner, refs[1..]);
      assert forall i :: 0 < i < |refs| ==> refs[i] == refs[1..][i - 1];
      Success([(refs[0].name, v)] + rest)
  }

  /** `getReferencedParametersAsText`. */
  function RequestText(p: Param): (r: Result<string>)
    ensures r.Failure? <==> exists i :: 0 <= i < |p.refs| && p.refs[i].element.None?
  {
    var pairs :- ReferencedValues(p.name, p.refs);
    Success(Encode(pairs, Separator))
  }

  /** The server reads back, in registration order, one pair per referenced
      parameter: its name and the value `getParameterValue` gave it. */
  lemma RequestTextRoundTrip(p: Param)
    requires RequestText(p).Success?
    requires forall i :: 0 <= i < |p.refs| ==>
               Recoverable((p.refs[i].name, ParameterValue(p.name, p.refs[i].element).value), Separator)
    ensures var d := Decode(RequestText(p).value, Separator);
            |d| == |p.refs| &&
            forall i :: 0 <= i < |p.refs| ==> d[i] == (p.refs[i].name, ParameterValue(p.name, p.refs[i].element).value)
  {
    var pairs := ReferencedValues(p.name, p.refs).value;
    DecodeEncode(pairs, Separator);
  }

  /** What has to hold for `update` on `p` not to throw before propagating:
      its element and those of the parameters it references exist. */
  predicate Updatable(p: Param) {
    p.element.Some? && RequestText(p).Success?
  }

  predicate AllUpdatable(qs: seq<Param>)
    decreases |qs|
  {
    |qs| == 0 || (Updatable(qs[0]) && AllUpdatable(qs[1..]))
  }

  lemma {:induction false} AllUpdatableSpec(qs: seq<Param>)
    ensures AllUpdatable(qs) <==> forall q :: q in qs ==> Updatable(q)
    decreases |qs|
  {
    if |qs| > 0 {
      AllUpdatableSpec(qs[1..]);
      assert forall q :: q in qs <==> q == qs[0] || q in qs[1..];
    }
  }

  /** The request a guarded `update(true)` of an updatable parameter sends. */
  function GuardedCall(d: Param): Call
    requires Updatable(d)
  {
    Call(d.name, true, RequestText(d).value)
  }

  /** Guarded updates of `ds`, one after another, until one throws. */
  function Sequential(ds: seq<Param>): Trace
    decreases |ds|
  {
    if |ds| == 0 then Trace([], None)
    else if !Updatable(ds[0]) then Trace([], Some(MissingElement(ds[0].name)))
    else
      var rest := Sequential(ds[1..]);
      Trace([GuardedCall(ds[0])] + rest.calls, rest.thrown)
  }

  /** Guarded updates one after another: every parameter before the first
      one that cannot be updated sends its request, that one throws with its
      own name, and nothing after it runs. */
  lemma {:induction false} SequentialSpec(ds: seq<Param>)
    ensures Sequential(ds).thrown.None? <==> AllUpdatable(ds)
    ensures |Sequential(ds).calls| <= |ds|
    ensures Sequential(ds).thrown.None? ==> |Sequential(ds).calls| == |ds|
    ensures forall i :: 0 <= i < |Sequential(ds).calls| ==>
              Updatable(ds[i]) && Sequential(ds).calls[i] == GuardedCall(ds[i])
    ensures Sequential(ds).thrown.Some? ==>
              var n := |Sequential(ds).calls|;
              n < |ds| && !Updatable(ds[n]) && Sequential(ds).thrown == Some(MissingElement(ds[n].name))
  {
    SequentialCalls(ds);
    SequentialOutcome(ds);
  }

  /** Call `i` of a run is the guarded update of parameter `i`. */
  lemma {:induction false} SequentialCalls(ds: seq<Param>)
    ensures |Sequential(ds).calls| <= |ds|
    ensures forall i :: 0 <= i < |Sequential(ds).calls| ==>
              Updatable(ds[i]) && Sequential(ds).calls[i] == GuardedCall(ds[i])
    decreases |ds|
  {
    if |ds| > 0 && Updatable(ds[0]) {
      SequentialCalls(ds[1..]);
      var rest := Sequential(ds[1..]);
      var t := Sequential(ds);
      assert t.calls == [GuardedCall(ds[0])] + rest.calls;
      assert forall i :: 1 <= i < |t.calls| ==> t.calls[i] == rest.calls[i - 1] && ds[i] == ds[1..][i - 1];
    }
  }

  /** A run throws iff some parameter cannot be updated, and then it names
      the one right after the last call; otherwise every parameter is called. */
  lemma {:induction false} SequentialOutcome(ds: seq<Param>)
    ensures Sequential(ds).thrown.None? <==> AllUpdatable(ds)
    ensures Sequential(ds).thrown.None? ==> |Sequential(ds).calls| == |ds|
    ensures Sequential(ds).thrown.Some? ==>
              var n := |Sequential(ds).calls|;
              n < |ds| && !Updatable(ds[n]) && Sequential(ds).thrown == Some(MissingElement(ds[n].name))
    decreases |ds|
  {
    if |ds| > 0 && Updatable(ds[0]) {
      SequentialOutcome(ds[1..]);
      var rest := Sequential(ds[1..]);
      assert |Sequential(ds).calls| == 1 + |rest.calls|;
      if rest.thrown.Some? {
        assert ds[1 + |rest.calls|] == ds[1..][|rest.calls|];
      }
    }
  }

  /** `update(avoidRecursion)` as the trace of update calls it makes. The
      element checks throw before `doUpdate` is reached; after its own
      request, `update(false)` runs the guarded updates of its dependents in
      registration order, and one that throws ends it. */
  function Update(p: Param, avoidRecursion: bool, reg: seq<Param>): (r: Trace)
    decreases if avoidRecursion then 0 else 1, |reg| + 1
    ensures !Updatable(p) ==> r == Trace([], Some(MissingElement(p.name)))
    ensures Updatable(p) ==>
              var after := if avoidRecursion then Trace([], None) else Sequential(Dependents(p.name, reg));
              r == Trace([Call(p.name, avoidRecursion, RequestText(p).value)] + after.calls, after.thrown)
  {
    if p.element.None? then Trace([], Some(MissingElement(p.name)))
    else
      match RequestText(p)
      case Failure(e) =>
        FirstFailureNamesOwner(p.name, p.refs);
        Trace([], Some(e))
      case Success(text) =>
        var me := Call(p.name, avoidRecursion, text);
        if avoidRecursion then Trace([me], None)
        else
          var rest := FanOut(p, reg, reg);
          Trace([me] + rest.calls, rest.thrown)
  }

  /** The loop over the registry in `update(false)`: `update(true)` on each
      parameter that references `p`, in order, until one throws. */
  function FanOut(p: Param, others: seq<Param>, reg: seq<Param>): (r: Trace)
    decreases 1, |others|
    ensures r == Sequential(Dependents(p.name, others))
  {
    if |others| == 0 then Trace([], None)
    else
      var o := others[0];
      var ds := Dependents(p.name, others);
      var tail := Dependents(p.name, others[1..]);
      if !ReferencesMe(p.name, Some(o)) then
        assert ds == tail;
        FanOut(p, others[1..], reg)
      else
        assert ds == [o] + tail;
        assert ds[0] == o && ds[1..] == tail;
        var first := Update(o, true, reg);
        if first.thrown.Some? then first
        else
          var rest := FanOut(p, others[1..], reg);
          Trace(first.calls + rest.calls, rest.thrown)
  }

  /** An update throws iff the parameter or, unguarded, one of its
      dependents cannot be updated; a throw after the first request names
      the dependent right after the last one that sent. */
  lemma UpdateOutcome(p: Param, avoidRecursion: bool, reg: seq<Param>)
    ensures var r := Update(p, avoidRecursion, reg);
            r.thrown.None? <==> Updatable(p) && (avoidRecursion || forall q :: q in Dependents(p.name, reg) ==> Updatable(q))
    ensures var r := Update(p, avoidRecursion, reg);
            Updatable(p) && r.thrown.Some? ==>
              var ds := Dependents(p.name, reg);
              |r.calls| <= |ds| && !Updatable(ds[|r.calls| - 1]) && r.thrown == Some(MissingElement(ds[|r.calls| - 1].name))
  {
    var ds := Dependents(p.name, reg);
    SequentialOutcome(ds);
    AllUpdatableSpec(ds);
  }

  /** An update's own request comes first; every later request is the
      guarded update of the dependent in that position, all of them when
      nothing throws. */
  lemma UpdateCalls(p: Param, avoidRecursion: bool, reg: seq<Param>)
    ensures var r := Update(p, avoidRecursion, reg);
            Updatable(p) ==> |r.calls| >= 1 && r.calls[0] == Call(p.name, avoidRecursion, RequestText(p).value)
    ensures var r := Update(p, avoidRecursion, reg);
            |r.calls| <= (if avoidRecursion then 1 else 1 + |Dependents(p.name, reg)|)
    ensures var r := Update(p, avoidRecursion, reg);
            r.thrown.None? && !avoidRecursion ==> |r.calls| == 1 + |Dependents(p.name, reg)|
    ensures var r := Update(p, avoidRecursion, reg);
            forall i :: 1 <= i < |r.calls| ==>
              var d := Dependents(p.name, reg)[i - 1];
              Updatable(d) && r.calls[i] == GuardedCall(d)
  {
    var ds := Dependents(p.name, reg);
    SequentialCalls(ds);
    SequentialOutcome(ds);
    var r := Update(p, avoidRecursion, reg);
    if Updatable(p) && !avoidRecursion {
      var s := Sequential(ds);
      assert r.calls == [Call(p.name, false, RequestText(p).value)] + s.calls;
      assert forall i :: 1 <= i < |r.calls| ==> r.calls[i] == s.calls[i - 1];
    }
  }

  /** The failure of `ReferencedValues` carries the owner's name. */
  lemma {:induction false} FirstFailureNamesOwner(owner: string, refs: seq<RefParam>)
    ensures ReferencedValues(owner, refs).Failure? ==> ReferencedValues(owner, refs).error == MissingElement(owner)
    decreases |refs|
  {
    if |refs| > 0 && refs[0].element.Some? {
      FirstFailureNamesOwner(owner, refs[1..]);
    }
  }

  /** `update` with no argument: a cascade choice parameter defaults to
      `avoidRecursion = true`, a dynamic reference parameter to `false`. */
  function DefaultAvoidRecursion(k: Kind): (r: bool)
    ensures k == CascadeChoice ==> r
    ensures k == DynamicReference ==> !r
  {
    k == CascadeChoice
  }

  /** A cascade choice parameter's `update()` is guarded: it sends its own
      request and starts no other. */
  lemma DefaultUpdateIsGuarded(p: Param, reg: seq<Param>)
    requires p.kind == CascadeChoice
    ensures |Update(p, DefaultAvoidRecursion(p.kind), reg).calls| <= 1
    ensures Updatable(p) ==> Update(p, DefaultAvoidRecursion(p.kind), reg) == Trace([Call(p.name, true, RequestText(p).value)], None)
  {
    UpdateCalls(p, true, reg);
  }

  /** One update fans out to at most one level: the trace is never longer
      than the registry plus one, and only its first call may propagate. */
  lemma PropagationBound(p: Param, avoidRecursion: bool, reg: seq<Param>)
    ensures |Update(p, avoidRecursion, reg).calls| <= 1 + |reg|
    ensures forall i :: 1 <= i < |Update(p, avoidRecursion, reg).calls| ==>
              Update(p, avoidRecursion, reg).calls[i].avoidRecursion
  {
    UpdateCalls(p, avoidRecursion, reg);
  }

  /** Two parameters referencing each other: updating the first without the
      guard updates the second once, guarded, and stops. */
  lemma MutualReferenceTerminates(el: Element)
    ensures
      var a := Param(CascadeChoice, "parameter1", Some(el), "r1", [RefParam("ref1", Some(el))]);
      var b := Param(CascadeChoice, "ref1", Some(el), "r2", [RefParam("parameter1", Some(el))]);
      var t := Update(a, false, [a, b]);
      t.thrown.None? && |t.calls| == 2 && t.calls[0].name == "parameter1" && !t.calls[0].avoidRecursion
      && t.calls[1].name == "ref1" && t.calls[1].avoidRecursion
  {
    var a := Param(CascadeChoice, "parameter1", Some(el), "r1", [RefParam("ref1", Some(el))]);
    var b := Param(CascadeChoice, "ref1", Some(el), "r2", [RefParam("parameter1", Some(el))]);
    assert !ReferencesMe("parameter1", Some(a));
    assert ReferencesMe("parameter1", Some(b));
    assert Dependents("parameter1", [a, b]) == [b] by {
      assert [a, b][1..] == [b];
    }
    assert Updatable(a) && Updatable(b);
    assert Sequential([b]) == Trace([GuardedCall(b)], None) by {
      assert [b][1..] == [];
    }
  }

  /** A dependent that lost its element throws after the requests of the
      update and of the dependents before it were sent. */
  lemma ThrowKeepsEarlierRequests(el: Element)
    ensures
      var a := Param(CascadeChoice, "a", Some(el), "r1", []);
      var b := Param(CascadeChoice, "b", Some(el), "r2", [RefParam("a", Some(el))]);
      var c := Param(CascadeChoice, "c", None, "r3", [RefParam("a", Some(el))]);
      var t := Update(a, false, [a, b, c]);
      |t.calls| == 2 && t.calls[0] == Call("a", false, "") && t.calls[1].name == "b"
      && t.thrown == Some(MissingElement("c"))
  {
    var a := Param(CascadeChoice, "a", Some(el), "r1", []);
    var b := Param(CascadeChoice, "b", Some(el), "r2", [RefParam("a", Some(el))]);
    var c := Param(CascadeChoice, "c", None, "r3", [RefParam("a", Some(el))]);
    DependentsOfA(el);
    NoReferencesSendEmptyText(a);
    assert Updatable(b) && !Updatable(c);
    assert Sequential([c]) == Trace([], Some(MissingElement("c")));
    assert [b, c][1..] == [c];
    assert Sequential([b, c]) == Trace([GuardedCall(b)], Some(MissingElement("c")));
  }

  /** Of `a`, `b` and `c`, the last two reference `a`. */
  lemma DependentsOfA(el: Element)
    ensures
      var a := Param(CascadeChoice, "a", Some(el), "r1", []);
      var b := Param(CascadeChoice, "b", Some(el), "r2", [RefParam("a", Some(el))]);
      var c := Param(CascadeChoice, "c", None, "r3", [RefParam("a", Some(el))]);
      Dependents("a", [a, b, c]) == [b, c]
  {
    var a := Param(CascadeChoice, "a", Some(el), "r1", []);
    var b := Param(CascadeChoice, "b", Some(el), "r2", [RefParam("a", Some(el))]);
    var c := Param(CascadeChoice, "c", None, "r3", [RefParam("a", Some(el))]);
    assert !ReferencesMe("a", Some(a));
    assert ReferencesMe("a", Some(b)) && ReferencesMe("a", Some(c));
    DependentsOfLastTwo("a", a, b, c);
  }

  /** Three registered parameters of which the last two reference `me`. */
  lemma DependentsOfLastTwo(me: string, a: Param, b: Param, c: Param)
    requires !ReferencesMe(me, Some(a)) && ReferencesMe(me, Some(b)) && ReferencesMe(me, Some(c))
    ensures Dependents(me, [a, b, c]) == [b, c]
  {
    DependentsCons(me, [a, b, c]);
    assert [a, b, c][1..] == [b, c];
    DependentsCons(me, [b, c]);
    assert [b, c][1..] == [c];
    DependentsCons(me, [c]);
    assert [c][1..] == [];
  }

  /** Unfolding the registry walk by one parameter. */
  lemma DependentsCons(me: string, reg: seq<Param>)
    requires |reg| > 0
    ensures Dependents(me, reg) == (if ReferencesMe(me, Some(reg[0])) then [reg[0]] else []) + Dependents(me, reg[1..])
  {
  }

  /** A parameter that references nothing sends the empty request text. */
  lemma NoReferencesSendEmptyText(p: Param)
    requires p.refs == []
    ensures RequestText(p) == Success("")
  {
    assert ReferencedValues(p.name, p.refs) == Success([]);
  }
}

=== FILE: choices.dfy ===
/** What `CascadeParameter.update` does with the choices the server
    returns: the `:selected` / `:disabled` suffix decoding of values and
    keys, the SELECT re-render, and the row ids of the checkbox and radio
    layouts. The server response is taken as already decoded into two
    sequences of strings, values and keys. */
module Choices {
  import opened Wrappers
  import opened Strings
  import opened Elements

  const Selected: string := ":selected"
  const Disabled: string := ":disabled"

  /** The value asks to be selected: it ends with `:selected` or `:selected:disabled`. */
  predicate MarksSelected(v: string) {
    EndsWith(v, Selected) || EndsWith(v, Selected + Disabled)
  }

  /** The value asks to be disabled: it ends with `:disabled` or `:disabled:selected`. */
  predicate MarksDisabled(v: string) {
    EndsWith(v, Disabled) || EndsWith(v, Disabled + Selected)
  }

  /** The two chained regular-expression replacements of each branch of the
      decoding loop, applied in the loop's order, both tests reading the
      value as the server sent it. A suffix is removed exactly when the
      value asks to be selected or disabled. */
  function StripMarks(v: string): (r: string)
    ensures |r| <= |v|
    ensures |r| < |v| <==> MarksSelected(v) || MarksDisabled(v)
  {
    var v1 := if MarksSelected(v)
              then ReplaceSuffix(ReplaceSuffix(v, Selected, ""), Selected + Disabled, Disabled)
              else v;
    if MarksDisabled(v)
    then ReplaceSuffix(ReplaceSuffix(v1, Disabled, ""), Disabled + Selected, Selected)
    else v1
  }

  /** The suffixes the server may append to a choice. */
  datatype Mark = Plain | Sel | Dis | SelDis | DisSel

  function MarkText(m: Mark): string {
    match m
    case Plain => ""
    case Sel => Selected
    case Dis => Disabled
    case SelDis => Selected + Disabled
    case DisSel => Disabled + Selected
  }

  predicate IsSel(m: Mark) {
    m == Sel || m == SelDis || m == DisSel
  }

  predicate IsDis(m: Mark) {
    m == Dis || m == SelDis || m == DisSel
  }

  /** A value that does not itself end in a suffix. */
  predicate Clean(b: string) {
    !EndsWith(b, Selected) && !EndsWith(b, Disabled)
  }

  /** A suffix of `x + y` longer than `y` is `y` preceded by a suffix of `x`. */
  lemma EndsWithAppend(x: string, y: string, z: string)
    ensures |z| <= |y| ==> (EndsWith(x + y, z) <==> EndsWith(y, z))
    ensures |z| > |y| ==> (EndsWith(x + y, z) <==> z[|z| - |y|..] == y && EndsWith(x, z[..|z| - |y|]))
  {
    var s := x + y;
    if |z| <= |y| {
      assert s[|s| - |z|..] == y[|y| - |z|..];
    } else if |z| <= |s| {
      assert s[|s| - |z|..] == s[|s| - |z|..|x|] + y;
      assert s[|s| - |z|..|x|] == x[|x| - (|z| - |y|)..];
      if EndsWith(s, z) {
        assert z[|z| - |y|..] == s[|s| - |z|..][|z| - |y|..];
      }
    }
  }

  /** A string ending in `x + y` ends in `y`. */
  lemma EndsWithTail(s: string, x: string, y: string)
    requires EndsWith(s, x + y)
    ensures EndsWith(s, y)
  {
    assert s[|s| - |y|..] == s[|s| - |x + y|..][|x|..];
  }

  /** A clean value ends in neither two-part suffix. */
  lemma CleanHasNoPair(b: string)
    requires Clean(b)
    ensures !MarksSelected(b) && !MarksDisabled(b)
  {
    if EndsWith(b, Selected + Disabled) { EndsWithTail(b, Selected, Disabled); }
    if EndsWith(b, Disabled + Selected) { EndsWithTail(b, Disabled, Selected); }
  }

  /** `b + y` with `y` one suffix: the suffixes it ends in are `y` and
      those a clean `b` can lend it. */
  lemma MarksOfOne(b: string, y: string)
    requires Clean(b) && (y == Selected || y == Disabled)
    ensures EndsWith(b + y, y)
    ensures EndsWith(b + y, Selected) <==> y == Selected
    ensures EndsWith(b + y, Disabled) <==> y == Disabled
    ensures !EndsWith(b + y, Selected + Disabled) && !EndsWith(b + y, Disabled + Selected)
    ensures (b + y)[..|b|] == b
  {
    EndsWithAppend(b, y, Selected);
    EndsWithAppend(b, y, Disabled);
    EndsWithAppend(b, y, Selected + Disabled);
    EndsWithAppend(b, y, Disabled + Selected);
  }

  /** `b + x + y` with `x`, `y` the two different suffixes. */
  lemma MarksOfTwo(b: string, x: string, y: string)
    requires Clean(b) && ((x, y) == (Selected, Disabled) || (x, y) == (Disabled, Selected))
    ensures EndsWith(b + x + y, y) && !EndsWith(b + x + y, x) && EndsWith(b + x + y, x + y)
    ensures (b + x + y)[..|b + x|] == b + x
    ensures (b + x + y)[..|b|] == b
  {
    var v := b + x + y;
    assert v == b + (x + y);
    EndsWithAppend(b + x, y, x);
    EndsWithAppend(b, x + y, x + y);
    assert v[..|b + x|] == b + x;
  }

  /** Exactly one suffix layer comes off a clean value, and the flags are
      the ones the suffix spells. */
  lemma StripOneLayer(b: string, m: Mark)
    requires Clean(b)
    ensures MarksSelected(b + MarkText(m)) == IsSel(m)
    ensures MarksDisabled(b + MarkText(m)) == IsDis(m)
    ensures StripMarks(b + MarkText(m)) == b
  {
    match m
    case Plain =>
      assert b + MarkText(m) == b;
      CleanHasNoPair(b);
    case Sel =>
      MarksOfOne(b, Selected);
      CleanHasNoPair(b);
      assert ReplaceSuffix(b + Selected, Selected, "") == b;
    case Dis =>
      MarksOfOne(b, Disabled);
      CleanHasNoPair(b);
      assert ReplaceSuffix(b + Disabled, Disabled, "") == b;
    case SelDis =>
      MarksOfTwo(b, Selected, Disabled);
      StripSelDis(b);
    case DisSel =>
      MarksOfTwo(b, Disabled, Selected);
      StripDisSel(b);
  }

  lemma StripSelDis(b: string)
    requires Clean(b)
    ensures StripMarks(b + (Selected + Disabled)) == b
  {
    var v := b + (Selected + Disabled);
    assert v == b + Selected + Disabled;
    MarksOfTwo(b, Selected, Disabled);
    EndsWithAppend(b, Selected + Disabled, Disabled + Selected);
    assert ReplaceSuffix(v, Selected, "") == v;
    assert v[..|v| - |Selected + Disabled|] == b;
    var v1 := ReplaceSuffix(ReplaceSuffix(v, Selected, ""), Selected + Disabled, Disabled);
    assert v1 == b + Disabled;
    MarksOfOne(b, Disabled);
    CleanHasNoPair(b);
    assert ReplaceSuffix(v1, Disabled, "") == b;
  }

  lemma StripDisSel(b: string)
    requires Clean(b)
    ensures StripMarks(b + (Disabled + Selected)) == b
  {
    var v := b + (Disabled + Selected);
    assert v == b + Disabled + Selected;
    MarksOfTwo(b, Disabled, Selected);
    var v0 := ReplaceSuffix(v, Selected, "");
    assert v0 == b + Disabled;
    MarksOfOne(b, Disabled);
    assert ReplaceSuffix(v0, Selected + Disabled, Disabled) == v0;
    EndsWithAppend(b, Disabled + Selected, Disabled);
  }

  /** A value that is not clean can lose more than one layer: the two
      replacement chains compose. */
  lemma StripCanRemoveTwoLayers()
    ensures StripMarks("a" + Selected + Disabled + Selected) == "a"
  {
    var v := "a" + Selected + Disabled + Selected;
    assert EndsWith(v, Selected);
    assert EndsWith(v, Disabled + Selected);
    var v0 := ReplaceSuffix(v, Selected, "");
    assert v0 == "a" + Selected + Disabled;
    assert EndsWith(v0, Selected + Disabled);
    assert ReplaceSuffix(v0, Selected + Disabled, Disabled) == "a" + Disabled;
    assert EndsWith("a" + Disabled, Disabled);
    assert ("a" + Disabled)[..1] == "a";
  }

  predicate StrictlyIncreasing(xs: seq<nat>) {
    forall i, j :: 0 <= i < j < |xs| ==> xs[i] < xs[j]
  }

  /** Whether a value asks to be selected (`selected`) or disabled. */
  predicate Marks(v: string, selected: bool) {
    if selected then MarksSelected(v) else MarksDisabled(v)
  }

  /** The indices, in increasing order, of the values carrying one kind of suffix. */
  method MarkedIndices(values: seq<string>, selected: bool) returns (idx: seq<nat>)
    ensures StrictlyIncreasing(idx)
    ensures forall k :: 0 <= k < |idx| ==> idx[k] < |values|
    ensures forall i :: 0 <= i < |values| ==> (i in idx <==> Marks(values[i], selected))
  {
    idx := [];
    for i := 0 to |values|
      invariant StrictlyIncreasing(idx)
      invariant forall k :: 0 <= k < |idx| ==> idx[k] < i
      invariant forall j :: 0 <= j < i ==> (j in idx <==> Marks(values[j], selected))
    {
      if Marks(values[i], selected) {
        idx := idx + [i];
      }
    }
  }

  /** The suffixes removed from each of the first `n` strings; later ones kept. */
  method StripPrefix(xs: seq<string>, n: nat) returns (ys: seq<string>)
    ensures |ys| == |xs|
    ensures forall j :: 0 <= j < |xs| ==> ys[j] == if j < n then StripMarks(xs[j]) else xs[j]
  {
    ys := xs;
    var stop := if n < |xs| then n else |xs|;
    for i := 0 to stop
      invariant |ys| == |xs|
      invariant forall j :: 0 <= j < |xs| ==> ys[j] == if j < i then StripMarks(xs[j]) else xs[j]
    {
      ys := ys[i := StripMarks(xs[i])];
    }
  }

  /** The decoding loop of `update`: the choices with their suffixes
      removed, and the indices the values mark as selected and disabled.
      Keys are cleaned the same way but never touch the index lists; keys
      beyond the values are left alone. */
  method DecodeChoices(values: seq<string>, keys: seq<string>)
    returns (vals: seq<string>, ks: seq<string>, selected: seq<nat>, disabled: seq<nat>)
    ensures |vals| == |values| && |ks| == |keys|
    ensures forall i :: 0 <= i < |values| ==> vals[i] == StripMarks(values[i])
    ensures forall i :: 0 <= i < |keys| ==> ks[i] == if i < |values| then StripMarks(keys[i]) else keys[i]
    ensures StrictlyIncreasing(selected) && StrictlyIncreasing(disabled)
    ensures forall k :: 0 <= k < |selected| ==> selected[k] < |values|
    ensures forall k :: 0 <= k < |disabled| ==> disabled[k] < |values|
    ensures forall i :: 0 <= i < |values| ==> (i in selected <==> MarksSelected(values[i]))
    ensures forall i :: 0 <= i < |values| ==> (i in disabled <==> MarksDisabled(values[i]))
  {
    selected := MarkedIndices(values, true);
    disabled := MarkedIndices(values, false);
    vals := StripPrefix(values, |values|);
    ks := StripPrefix(keys, |values|);
  }

  /** An option of the re-rendered SELECT. */
  datatype ChoiceOption = ChoiceOption(text: string, value: string, selected: bool, disabled: bool)

  /** The SELECT branch of `update`: every old option goes, then one option
      per value, carrying the value as text and the key as value. A key the
      server did not send reads as `undefined`. `multiple` is what
      `getAttribute('multiple')` reads (`None` when the attribute is absent,
      `Some("")` for a bare `multiple`); only the exact value `multiple`
      gives the SELECT a size, of at most ten rows. */
  method RenderSelect(vals: seq<string>, ks: seq<string>, selected: seq<nat>, disabled: seq<nat>, multiple: Option<string>)
    returns (options: seq<ChoiceOption>, size: Option<nat>)
    ensures |options| == |vals|
    ensures forall i :: 0 <= i < |vals| ==> options[i].text == vals[i]
    ensures forall i :: 0 <= i < |vals| ==> options[i].value == if i < |ks| then ks[i] else "undefined"
    ensures forall i :: 0 <= i < |vals| ==> (options[i].selected <==> i in selected)
    ensures forall i :: 0 <= i < |vals| ==> (options[i].disabled <==> i in disabled)
    ensures multiple == Some("multiple") ==> size == Some(if |vals| > 10 then 10 else |vals|)
    ensures multiple != Some("multiple") ==> size.None?
  {
    options := [];
    for i := 0 to |vals|
      invariant |options| == i
      invariant forall j :: 0 <= j < i ==> options[j].text == vals[j]
      invariant forall j :: 0 <= j < i ==> options[j].value == if j < |ks| then ks[j] else "undefined"
      invariant forall j :: 0 <= j < i ==> (options[j].selected <==> j in selected)
      invariant forall j :: 0 <= j < i ==> (options[j].disabled <==> j in disabled)
    {
      var key := if i < |ks| then ks[i] else "undefined";
      options := options + [ChoiceOption(vals[i], key, i in selected, i in disabled)];
    }
    size := if multiple == Some("multiple") then Some(if |vals| > 10 then 10 else |vals|) else None;
  }

  /** The whole SELECT refresh: an option is selected (disabled) exactly
      when the server's value for it carries a selected (disabled) suffix,
      and it shows that value with its suffix removed. `multiple` is the
      attribute as `RenderSelect` reads it. */
  method RefreshSelect(values: seq<string>, keys: seq<string>, multiple: Option<string>)
    returns (options: seq<ChoiceOption>, size: Option<nat>)
    ensures |options| == |values|
    ensures forall i :: 0 <= i < |values| ==> options[i].text == StripMarks(values[i])
    ensures forall i :: 0 <= i < |values| && i < |keys| ==> options[i].value == StripMarks(keys[i])
    ensures forall i :: |keys| <= i < |values| ==> options[i].value == "undefined"
    ensures forall i :: 0 <= i < |values| ==> (options[i].selected <==> MarksSelected(values[i]))
    ensures forall i :: 0 <= i < |values| ==> (options[i].disabled <==> MarksDisabled(values[i]))
    ensures multiple == Some("multiple") ==> size == Some(if |values| > 10 then 10 else |values|)
    ensures multiple != Some("multiple") ==> size.None?
  {
    var vals, ks, selected, disabled := DecodeChoices(values, keys);
    options, size := RenderSelect(vals, ks, selected, disabled, multiple);
  }

  // ---------------------------------------------------------------------
  // Row ids of the checkbox and radio layouts

  /** `('ecp_' + randomName + '_' + i).replace(' ', '_')`: the space is
      replaced in place, so the id is as long as its parts. */
  function RowId(randomName: string, i: nat): (r: string)
    ensures |r| == |"ecp_"| + |randomName| + 1 + |NatToString(i)|
  {
    ReplaceFirst("ecp_" + randomName + "_" + NatToString(i), ' ', '_')
  }

  /** Only the first space of the random name becomes `_`; the prefix and
      the index are kept as they are. */
  lemma RowIdShape(randomName: string, i: nat)
    ensures RowId(randomName, i) == "ecp_" + ReplaceFirst(randomName, ' ', '_') + "_" + NatToString(i)
  {
    var tail := "_" + NatToString(i);
    var rn' := ReplaceFirst(randomName, ' ', '_');
    assert "ecp_" + randomName + "_" + NatToString(i) == "ecp_" + (randomName + tail);
    assert "ecp_" + rn' + "_" + NatToString(i) == "ecp_" + (rn' + tail);
    assert ' ' !in "ecp_";
    ReplaceFirstAppend("ecp_", randomName + tail, ' ', '_');
    ReplaceFirstAppend(randomName, tail, ' ', '_');
    if ' ' !in randomName {
      assert ' ' !in tail by {
        forall k | 0 <= k < |tail| ensures tail[k] != ' ' {
          if k > 0 { assert tail[k] == NatToString(i)[k - 1]; }
        }
      }
      ReplaceFirstSpec(tail, ' ', '_');
      ReplaceFirstSpec(randomName, ' ', '_');
      assert ReplaceFirst(randomName + tail, ' ', '_') == rn' + tail;
    }
  }

}

=== FILE: dynamic.dfy ===
/** `DynamicReferenceParameter.update`: which kind of element is refreshed
    and what it shows afterwards. The server's answer is taken as already
    parsed: `values` is the first array of `getChoicesForUI`, `text` the
    answer of `getChoicesAsStringForUI`, and `parse` stands for the
    `JSON.parse` of a formatted-HTML answer. Propagation is the one of
    `Cascade.Update`, with `avoidRecursion` defaulting to `false`. */
module Dynamic {
  import opened Wrappers
  import opened Strings
  import opened Elements
  import Cascade

  /** The kinds of element the update refreshes, and any other element. */
  datatype Target = OrderedList | UnorderedList | InputBox | FormattedHtml | Unhandled

  /** The branch order of `update`: the tag is checked before the id, and
      an `inputElement_` id is checked before a `formattedHtml_` one. */
  function Dispatch(e: Element): (t: Target)
    ensures t == OrderedList <==> e.tag == "OL"
    ensures t == UnorderedList <==> e.tag == "UL"
    ensures t == InputBox <==> e.tag !in {"OL", "UL"} && Contains(e.id, "inputElement_")
    ensures t == FormattedHtml <==>
              e.tag !in {"OL", "UL"} && !Contains(e.id, "inputElement_") && Contains(e.id, "formattedHtml_")
  {
    if e.tag == "OL" then OrderedList
    else if e.tag == "UL" then UnorderedList
    else if Contains(e.id, "inputElement_") then InputBox
    else if Contains(e.id, "formattedHtml_") then FormattedHtml
    else Unhandled
  }

  /** What the element holds after the refresh. */
  datatype Shown =
    | ListItems(items: seq<string>)   // the inner HTML of the new `<li>` children
    | InputValue(value: string)       // the new value of an input box
    | InnerHtml(html: string)         // the new inner HTML
    | Unchanged

  /** The refresh as written: an ordered list gets one item per value, but
      each item's inner HTML is the whole array, rendered as its comma join. */
  function RefreshAsWritten(e: Element, values: seq<string>, text: string, parse: string -> string): (r: Shown)
    ensures e.tag == "OL" ==> r.ListItems? && |r.items| == |values| && forall i :: 0 <= i < |values| ==> r.items[i] == Join(values, ",")
    ensures e.tag != "OL" ==> r == Refresh(e, values, text, parse)
  {
    match Dispatch(e)
    case OrderedList => ListItems(seq(|values|, _ => Join(values, ",")))
    case UnorderedList => ListItems(values)
    case InputBox => InputValue(text)
    case FormattedHtml => InnerHtml(parse(text))
    case Unhandled => Unchanged
  }

  /** The refresh with the ordered list filled like the unordered one,
      one value per item; the rest of the model uses this one. */
  function Refresh(e: Element, values: seq<string>, text: string, parse: string -> string): (r: Shown)
    ensures e.tag in {"OL", "UL"} <==> r.ListItems?
    ensures r.ListItems? ==> r.items == values
    ensures r.InputValue? ==> r.value == text && Contains(e.id, "inputElement_")
    ensures r.InnerHtml? ==> r.html == parse(text) && Contains(e.id, "formattedHtml_")
    ensures r == Unchanged <==> Dispatch(e) == Unhandled
    ensures Dispatch(e) == InputBox ==> r == InputValue(text)
    ensures Dispatch(e) == FormattedHtml ==> r == InnerHtml(parse(text))
  {
    match Dispatch(e)
    case OrderedList => ListItems(values)
    case UnorderedList => ListItems(values)
    case InputBox => InputValue(text)
    case FormattedHtml => InnerHtml(parse(text))
    case Unhandled => Unchanged
  }

  /** Each branch reads only the answer of the proxy method it calls: a list
      the array of `getChoicesForUI`, an input box or formatted HTML the text
      of `getChoicesAsStringForUI`; an element no branch handles reads neither. */
  lemma RefreshReadsOwnAnswer(e: Element, values: seq<string>, values': seq<string>, text: string, text': string,
                              parse: string -> string)
    ensures Dispatch(e) in {OrderedList, UnorderedList} ==> Refresh(e, values, text, parse) == Refresh(e, values, text', parse)
    ensures Dispatch(e) in {InputBox, FormattedHtml} ==> Refresh(e, values, text, parse) == Refresh(e, values', text, parse)
    ensures Dispatch(e) == Unhandled ==> Refresh(e, values, text, parse) == Unchanged == Refresh(e, values', text', parse)
  {
  }

  /** The two refreshes differ only on ordered lists of two or more values,
      where each item repeats the whole list. */
  lemma {:induction false} RefreshAgreement(e: Element, values: seq<string>, text: string, parse: string -> string)
    ensures e.tag != "OL" || |values| <= 1 <==> RefreshAsWritten(e, values, text, parse) == Refresh(e, values, text, parse)
    ensures e.tag == "OL" ==>
              RefreshAsWritten(e, values, text, parse).ListItems? &&
              |RefreshAsWritten(e, values, text, parse).items| == |values| &&
              forall i :: 0 <= i < |values| ==> RefreshAsWritten(e, values, text, parse).items[i] == Join(values, ",")
  {
    if e.tag == "OL" {
      var w := seq(|values|, _ => Join(values, ","));
      if |values| == 1 {
        assert w == values;
      } else if |values| >= 2 {
        assert w[0] != values[0] by {
          JoinLonger(values);
        }
      }
    }
  }

  /** The comma join of two or more values is longer than the first one. */
  lemma JoinLonger(values: seq<string>)
    requires |values| >= 2
    ensures |Join(values, ",")| > |values[0]|
  {
  }

  /** An ordered list answered with `a` and `b`, as written and as meant. */
  lemma OrderedListRepeatsTheArray(e: Element, text: string, parse: string -> string)
    requires e.tag == "OL"
    ensures RefreshAsWritten(e, ["a", "b"], text, parse) == ListItems(["a,b", "a,b"])
    ensures Refresh(e, ["a", "b"], text, parse) == ListItems(["a", "b"])
  {
    assert Join(["a", "b"], ",") == "a" + "," + Join(["b"], ",");
    var w := seq(2, _ => Join(["a", "b"], ","));
    assert w[0] == "a,b" && w[1] == "a,b";
    assert w == ["a,b", "a,b"];
  }

  /** `update()` of a dynamic reference parameter propagates: with no
      argument it updates every registered parameter that references it. */
  lemma DefaultUpdatePropagates(p: Cascade.Param, reg: seq<Cascade.Param>)
    requires p.kind == Cascade.DynamicReference
    ensures var r := Cascade.Update(p, Cascade.DefaultAvoidRecursion(p.kind), reg);
            r.thrown.None? ==> |r.calls| == 1 + |Cascade.Dependents(p.name, reg)| && !r.calls[0].avoidRecursion
  {
    Cascade.UpdateOutcome(p, false, reg);
    Cascade.UpdateCalls(p, false, reg);
  }

  /** The own fields of a dynamic reference parameter that its `update`
      reads: `paramElement` (the jQuery wrapper of its element) and
      `cascadeParameters`. `None` is a field never assigned, read as `undefined`. */
  datatype Fields = Fields(paramElement: Option<Option<Element>>, cascadeParameters: Option<seq<Cascade.Param>>)

  /** The fields of an instance as its constructor leaves them: the element
      and the registry go to the superclass constructor, which keeps the
      element as `$element` and has no parameter for the registry, so
      neither field is assigned. */
  const Constructed: Fields := Fields(None, None)

  /** `update` as written, reading its own fields: `paramElement.get(0)` on
      an unassigned field is a `TypeError`; an unassigned registry ends the
      update after its own request. */
  function UpdateAsWritten(p: Cascade.Param, f: Fields, avoidRecursion: bool): (r: Cascade.Trace)
    ensures f.paramElement.None? ==> r == Cascade.Trace([], Some(UndefinedField("paramElement")))
    ensures f.cascadeParameters.None? ==> |r.calls| <= 1
  {
    match f.paramElement
    case None => Cascade.Trace([], Some(UndefinedField("paramElement")))
    case Some(el) =>
      if el.None? then Cascade.Trace([], Some(MissingElement(p.name)))
      else
        match Cascade.RequestText(p)
        case Failure(e) => Cascade.Trace([], Some(e))
        case Success(text) =>
          var me := Cascade.Call(p.name, avoidRecursion, text);
          if avoidRecursion || f.cascadeParameters.None? then Cascade.Trace([me], None)
          else
            var rest := Cascade.FanOut(p, f.cascadeParameters.value, f.cascadeParameters.value);
            Cascade.Trace([me] + rest.calls, rest.thrown)
  }

  /** With its fields holding the element and the page's registry, as
      meant, the update is the one of a cascade parameter. */
  lemma UpdateWithFieldsSet(p: Cascade.Param, avoidRecursion: bool, reg: seq<Cascade.Param>)
    ensures UpdateAsWritten(p, Fields(Some(p.element), Some(reg)), avoidRecursion) == Cascade.Update(p, avoidRecursion, reg)
  {
  }

  /** A dynamic reference parameter referencing a cascade parameter that
      references it back: as constructed, its `update()` throws before any
      request; as meant, it sends its own request and one guarded update. */
  lemma ConstructedUpdateThrows(el: Element)
    ensures
      var d := Cascade.Param(Cascade.DynamicReference, "dyn", Some(el), "r1", [Cascade.RefParam("c", Some(el))]);
      var c := Cascade.Param(Cascade.CascadeChoice, "c", Some(el), "r2", [Cascade.RefParam("dyn", Some(el))]);
      && UpdateAsWritten(d, Constructed, Cascade.DefaultAvoidRecursion(d.kind)) == Cascade.Trace([], Some(UndefinedField("paramElement")))
      && |Cascade.Update(d, Cascade.DefaultAvoidRecursion(d.kind), [d, c]).calls| == 2
  {
    var d := Cascade.Param(Cascade.DynamicReference, "dyn", Some(el), "r1", [Cascade.RefParam("c", Some(el))]);
    var c := Cascade.Param(Cascade.CascadeChoice, "c", Some(el), "r2", [Cascade.RefParam("dyn", Some(el))]);
    assert !Cascade.ReferencesMe("dyn", Some(d));
    assert Cascade.ReferencesMe("dyn", Some(c));
    assert Cascade.Dependents("dyn", [d, c]) == [c] by {
      assert [d, c][1..] == [c];
    }
    assert Cascade.Updatable(d) && Cascade.Updatable(c);
    assert Cascade.Sequential([c]) == Cascade.Trace([Cascade.GuardedCall(c)], None) by {
      assert [c][1..] == [];
    }
  }
}

=== FILE: elements.dfy ===
/** HTML elements as plain records, and the decision procedure of
    `AbstractParameter` that turns an element into the string sent to the
    server for it (`getParameterValue`, `getElementValue`,
    `getSelectValues`). */
module Elements {
  import opened Wrappers
  import opened Strings

  /** An `<option>` of a SELECT: its `value` property, its `text`, and
      whether the DOM considers it selected and disabled. */
  datatype SelectOption = SelectOption(value: string, text: string, selected: bool, disabled: bool)

  /** An element reduced to what the plugin reads. Attributes that are
      absent read as `""`, as `getAttribute(..) || ''` does. */
  datatype Element = Element(
    tag: string,                     // upper-case tag name
    name: string,                    // `name` attribute
    typ: string,                     // `type` attribute
    value: string,                   // jQuery `.val()` of a non-SELECT element
    checked: bool,                   // `checked` property
    alt: string,                     // `alt` attribute
    className: string,               // `class` attribute
    id: string,                      // `id` attribute
    innerHTML: string,
    parent: Option<nat>,             // identity of the parent node, if any
    options: seq<SelectOption>,      // the option children of a SELECT
    valueDescendants: seq<Element>,  // descendants matching `[name="value"]`, in document order
    firstFile: Option<string>        // name of the first chosen file of a file input
  )

  /** `getElementValue` returns either a string or, for a SELECT, an array. */
  datatype Value = Text(text: string) | Texts(items: seq<string>)

  /** JavaScript truthiness of a value: a non-empty string, or any array. */
  predicate Truthy(v: Value) {
    v.Texts? || v.text != ""
  }

  /** `toString` of a value: an array renders as its comma join. */
  function Render(v: Value): string {
    match v
    case Text(s) => s
    case Texts(xs) => Join(xs, ",")
  }

  /** `option.value || option.text`. */
  function OptionValue(o: SelectOption): string {
    if o.value != "" then o.value else o.text
  }

  function CountSelected(opts: seq<SelectOption>): nat
    decreases |opts|
  {
    if |opts| == 0 then 0 else (if opts[0].selected then 1 else 0) + CountSelected(opts[1..])
  }

  /** `getSelectValues`: the values of the selected options, in document order. */
  function SelectValues(opts: seq<SelectOption>): (r: seq<string>)
    decreases |opts|
    ensures |r| == CountSelected(opts)
    ensures forall v :: v in r <==> exists i :: 0 <= i < |opts| && opts[i].selected && OptionValue(opts[i]) == v
  {
    if |opts| == 0 then []
    else
      var rest := SelectValues(opts[1..]);
      assert forall i :: 0 < i < |opts| ==> opts[i] == opts[1..][i - 1];
      if opts[0].selected then [OptionValue(opts[0])] + rest else rest
  }

  /** Document order is kept: the values of a concatenation are the
      concatenation of the values. */
  lemma {:induction false} SelectValuesAppend(a: seq<SelectOption>, b: seq<SelectOption>)
    ensures SelectValues(a + b) == SelectValues(a) + SelectValues(b)
    decreases |a|
  {
    if |a| > 0 {
      assert (a + b)[1..] == a[1..] + b;
      SelectValuesAppend(a[1..], b);
    } else {
      assert a + b == b;
    }
  }

  /** `getElementValue`: a SELECT yields its selected values, a checkbox or
      radio its value when checked and `""` otherwise, anything else its value. */
  function ElementValue(e: Element): (r: Value)
    ensures r.Texts? <==> e.tag == "SELECT"
    ensures e.tag == "SELECT" ==> |r.items| == CountSelected(e.options)
    ensures e.tag != "SELECT" && (e.typ == "checkbox" || e.typ == "radio") ==>
              r == Text(if e.checked then e.value else "")
    ensures e.tag != "SELECT" && e.typ != "checkbox" && e.typ != "radio" ==> r == Text(e.value)
  {
    if e.tag == "SELECT" then Texts(SelectValues(e.options))
    else if e.typ == "checkbox" || e.typ == "radio" then Text(if e.checked then e.value else "")
    else Text(e.value)
  }

  /** The values a DIV collects, in order: the truthy values of its
      `[name="value"]` descendants, each rendered with `toString`. */
  function Collected(ds: seq<Element>): (r: seq<string>)
    decreases |ds|
    ensures |r| <= |ds|
  {
    if |ds| == 0 then []
    else
      var v := ElementValue(ds[0]);
      (if Truthy(v) then [Render(v)] else []) + Collected(ds[1..])
  }

  /** The DIV branch as it is written: each iteration over the descendants
      reads the outer element, so the DIV's own value is collected once per
      descendant. */
  function DivValueAsWritten(e: Element): string {
    var v := ElementValue(e);
    if Truthy(v) then Join(seq(|e.valueDescendants|, _ => Render(v)), ",") else ""
  }

  /** The DIV branch as its comment and its tests intend: the comma join of
      the truthy values of the descendants named `value`. */
  function DivValue(e: Element): string {
    Join(Collected(e.valueDescendants), ",")
  }

  /** The branch order of `getParameterValue` once the element exists;
      `divValue` is what the DIV branch produces. */
  function Decide(e: Element, divValue: string): string {
    var v := ElementValue(e);
    if e.name == "value" && v.Text? then v.text
    else if e.tag == "DIV" then divValue
    else if e.typ == "file" && e.tag != "INPUT" then ""
    else if e.typ == "file" && e.firstFile.Some? then e.firstFile.value
    else if e.tag == "INPUT" && e.name != "" && e.name != "name" then Render(v)
    else ""
  }

  /** `getParameterValue` exactly as written, DIV branch included. */
  function ParameterValueAsWritten(paramName: string, el: Option<Element>): (r: Result<string>)
    ensures el.None? <==> r.Failure?
    ensures el.Some? && el.value.tag != "DIV" ==> r == ParameterValue(paramName, el)
    ensures el.Some? && el.value.tag == "DIV" && el.value.name != "value" && !Truthy(ElementValue(el.value)) ==>
              r == Success("")
  {
    match el
    case None => Failure(MissingElement(paramName))
    case Some(e) => Success(Decide(e, DivValueAsWritten(e)))
  }

  /** `getParameterValue` with the DIV branch reading each descendant; the
      rest of the model uses this one. */
  function ParameterValue(paramName: string, el: Option<Element>): (r: Result<string>)
    ensures el.None? <==> r.Failure?
    ensures el.Some? && el.value.name == "value" && el.value.tag != "SELECT" ==>
              r == Success(ElementValue(el.value).text)
    ensures el.Some? && el.value.tag == "DIV" && el.value.name != "value" ==>
              r == Success(DivValue(el.value))
    ensures el.Some? && el.value.tag == "INPUT" && el.value.name !in {"", "name", "value"}
            && !(el.value.typ == "file" && el.value.firstFile.Some?) ==>
              r == Success(ElementValue(el.value).text)
    ensures el.Some? && el.value.tag == "INPUT" && el.value.name in {"", "name"}
            && !(el.value.typ == "file" && el.value.firstFile.Some?) ==>
              r == Success("")
    ensures el.Some? && el.value.tag == "INPUT" && el.value.typ == "file" && el.value.firstFile.Some?
            && el.value.name != "value" ==>
              r == Success(el.value.firstFile.value)
    ensures el.Some? && el.value.tag !in {"DIV", "INPUT"} && (el.value.name != "value" || el.value.tag == "SELECT") ==>
              r == Success("")
  {
    match el
    case None => Failure(MissingElement(paramName))
    case Some(e) => Success(Decide(e, DivValue(e)))
  }

  // ---------------------------------------------------------------------
  // The DIV branch: what is written and what is meant

  /** A DIV holding one checked checkbox named `value` with value `123`. */
  function CheckboxDiv(): Element {
    var box := Element("INPUT", "value", "checkbox", "123", true, "", "", "", "", Some(1), [], [], None);
    Element("DIV", "", "", "", false, "", "", "", "", None, [], [box], None)
  }

  /** As written, the checked checkbox inside the DIV is never read. */
  lemma DivAsWrittenIgnoresDescendants()
    ensures ParameterValueAsWritten("ref1", Some(CheckboxDiv())) == Success("")
    ensures ParameterValue("ref1", Some(CheckboxDiv())) == Success("123")
  {
    var e := CheckboxDiv();
    assert ElementValue(e) == Text("");
    assert Collected(e.valueDescendants) == ["123"];
  }

  /** The corrected DIV branch joins, in document order, exactly the truthy
      descendant values. */
  lemma {:induction false} CollectedSpec(ds: seq<Element>)
    ensures forall s :: s in Collected(ds) <==>
              exists i :: 0 <= i < |ds| && Truthy(ElementValue(ds[i])) && Render(ElementValue(ds[i])) == s
    decreases |ds|
  {
    if |ds| > 0 {
      CollectedSpec(ds[1..]);
      assert forall i :: 0 < i < |ds| ==> ds[i] == ds[1..][i - 1];
    }
  }

  /** What `getElementValue` contributes to `getParameterValue`: a SELECT
      its selected values in document order; a checkbox or radio named
      `value` its value only when checked; and inside a DIV even a SELECT
      with nothing selected adds an entry, empty, since an array is truthy. */
  lemma ElementValueContributions(paramName: string, e: Element)
    ensures e.tag == "SELECT" ==> ElementValue(e) == Texts(SelectValues(e.options))
    ensures e.tag != "SELECT" && e.name == "value" ==> ParameterValue(paramName, Some(e)) == Success(ElementValue(e).text)
    ensures e.tag != "SELECT" && e.name == "value" && (e.typ == "checkbox" || e.typ == "radio") ==>
              ParameterValue(paramName, Some(e)) == Success(if e.checked then e.value else "")
    ensures e.tag == "SELECT" && CountSelected(e.options) == 0 ==> Collected([e]) == [""]
  {
    if e.tag == "SELECT" && CountSelected(e.options) == 0 {
      assert [e][1..] == [];
      assert SelectValues(e.options) == [];
    }
  }

  /** A SELECT named `value`: its array falls through every branch. */
  lemma SelectNamedValueYieldsEmpty(e: Element)
    requires e.tag == "SELECT" && e.name == "value"
    ensures ParameterValue("p", Some(e)) == Success("")
  {
  }

  /** The cases of the repository's unit tests for the request text. */
  lemma ParameterValueExamples()
    ensures ParameterValue("ref1", Some(Element("OPTION", "value", "", "123", false, "", "", "", "", None, [], [], None)))
            == Success("123")
    ensures ParameterValue("ref1", Some(Element("INPUT", "test", "", "123", false, "", "", "", "", None, [], [], None)))
            == Success("123")
    ensures ParameterValue("ref1", Some(Element("INPUT", "name", "", "123", false, "", "", "", "", None, [], [], None)))
            == Success("")
    ensures ParameterValue("ref1", Some(Element("UL", "", "", "", false, "", "", "", "", None, [], [], None)))
            == Success("")
    ensures var sel := Element("SELECT", "value", "", "", false, "", "", "", "", None,
                               [SelectOption("", "", false, false), SelectOption("1", "1", true, false), SelectOption("2", "2", true, false)], [], None);
            ParameterValue("ref1", Some(Element("DIV", "", "", "", false, "", "", "", "", None, [], [sel], None)))
            == Success("1,2")
  {
    var sel := Element("SELECT", "value", "", "", false, "", "", "", "", None,
                       [SelectOption("", "", false, false), SelectOption("1", "1", true, false), SelectOption("2", "2", true, false)], [], None);
    assert SelectValues(sel.options) == ["1", "2"];
    assert Join(["1", "2"], ",") == "1" + "," + Join(["2"], ",");
    assert Render(ElementValue(sel)) == "1,2";
    assert Collected([sel]) == ["1,2"];
  }
}

=== FILE: filter.dfy ===
/** `FilterElement`: the list of original options a filter box narrows, the
    key-up handler that keeps the options whose text contains the typed
    text (case-insensitively), and the reset that `update` performs after
    re-rendering. The filter text is matched as a literal substring. */
module Filter {
  import opened Wrappers
  import opened Strings
  import opened Elements
  import opened Sequences

  /** The event name the handler puts on the change event it triggers. */
  const FilterEventName: string := "Filter Element Event"

  /** What a filter knows: the options it narrows, the text in its input
      box, and the least length the text must have before it filters. */
  datatype FilterState = FilterState(original: seq<Element>, filterText: string, filterLength: int)

  /** The text an option is matched on: for an INPUT its `alt` attribute
      when that is set and differs from its value, else its value; for any
      other element its inner HTML. */
  function MatchKey(o: Element): (r: string)
    ensures o.tag != "INPUT" ==> r == o.innerHTML
    ensures o.tag == "INPUT" ==> r == (if o.alt != "" then o.alt else o.value)
  {
    if o.tag == "INPUT" then
      if o.alt != "" && o.alt != o.value then o.alt else o.value
    else o.innerHTML
  }

  /** Whether the lower-cased match key of `o` contains `text`. */
  predicate Matches(o: Element, text: string)
    ensures text == "" ==> Matches(o, text)
    ensures Matches(o, text) ==> |text| <= |MatchKey(o)|
  {
    assert text == "" ==> OccursAt(ToLower(MatchKey(o)), 0, text);
    Contains(ToLower(MatchKey(o)), text)
  }

  /** The options that match `text`, in their original order. */
  function Survivors(os: seq<Element>, text: string): (r: seq<Element>)
    decreases |os|
    ensures |r| <= |os|
    ensures forall x {:trigger multiset(r)[x]} :: multiset(r)[x] == if Matches(x, text) then multiset(os)[x] else 0
    ensures forall x :: x in r <==> x in os && Matches(x, text)
  {
    if |os| == 0 then []
    else
      var rest := Survivors(os[1..], text);
      assert os == [os[0]] + os[1..];
      assert multiset(os) == multiset{os[0]} + multiset(os[1..]);
      assert forall x :: x in os <==> x == os[0] || x in os[1..];
      if Matches(os[0], text) then
        assert multiset([os[0]] + rest) == multiset{os[0]} + multiset(rest);
        [os[0]] + rest
      else rest
  }

  /** Filtering deletes options and never reorders them. */
  lemma {:induction false} SurvivorsAreSubsequence(os: seq<Element>, text: string)
    ensures Subsequence(Survivors(os, text), os)
    decreases |os|
  {
    if |os| > 0 {
      SurvivorsAreSubsequence(os[1..], text);
      if Matches(os[0], text) {
        assert ([os[0]] + Survivors(os[1..], text))[1..] == Survivors(os[1..], text);
      }
    }
  }

  /** Every string contains the empty text. */
  lemma ContainsEmpty(s: string)
    ensures Contains(s, "")
  {
    assert OccursAt(s, 0, "");
  }

  /** An empty filter keeps every option. */
  lemma {:induction false} EmptyTextKeepsAll(os: seq<Element>)
    ensures Survivors(os, "") == os
    decreases |os|
  {
    if |os| > 0 {
      ContainsEmpty(ToLower(MatchKey(os[0])));
      EmptyTextKeepsAll(os[1..]);
    }
  }

  /** Filtering twice with the same text is filtering once. */
  lemma {:induction false} SurvivorsIdempotent(os: seq<Element>, text: string)
    ensures Survivors(Survivors(os, text), text) == Survivors(os, text)
    decreases |os|
  {
    if |os| > 0 {
      SurvivorsIdempotent(os[1..], text);
      if Matches(os[0], text) {
        assert ([os[0]] + Survivors(os[1..], text))[1..] == Survivors(os[1..], text);
      }
    }
  }

  /** A text containing `t + u` contains `t`. */
  lemma ContainsPrefix(s: string, t: string, u: string)
    requires Contains(s, t + u)
    ensures Contains(s, t)
  {
    var i: nat :| i <= |s| && OccursAt(s, i, t + u);
    assert s[i..i + |t|] == s[i..i + |t + u|][..|t|] == (t + u)[..|t|] == t;
    assert OccursAt(s, i, t);
  }

  /** Typing more characters narrows the current result: filtering the
      survivors of `t` with `t + u` is filtering the originals with `t + u`. */
  lemma {:induction false} NarrowingRefilters(os: seq<Element>, t: string, u: string)
    ensures Survivors(Survivors(os, t), t + u) == Survivors(os, t + u)
    decreases |os|
  {
    if |os| > 0 {
      NarrowingRefilters(os[1..], t, u);
      if Matches(os[0], t + u) {
        ContainsPrefix(ToLower(MatchKey(os[0])), t, u);
      }
      if Matches(os[0], t) {
        assert ([os[0]] + Survivors(os[1..], t))[1..] == Survivors(os[1..], t);
      }
    }
  }

  /** What a key-up does: nothing while the text is non-empty and shorter
      than the filter length; otherwise it keeps the survivors, rebuilds a
      SELECT from them (value and inner HTML of each), and triggers a change
      event named `Filter Element Event`. */
  datatype KeyupResult =
    | Ignored
    | Filtered(survivors: seq<Element>, selectOptions: seq<Element>, eventName: string)

  /** The OPTION a SELECT gets for a surviving option. */
  function Copy(o: Element): Element {
    Element("OPTION", "", "", o.value, false, "", "", "", o.innerHTML, None, [], [], None)
  }

  function Keyup(f: FilterState, filtered: Element): (r: KeyupResult)
    ensures var text := ToLower(f.filterText);
            r.Ignored? <==> |text| != 0 && |text| < f.filterLength
    ensures r.Filtered? ==> r.survivors == Survivors(f.original, ToLower(f.filterText)) && r.eventName == FilterEventName
    ensures r.Filtered? && filtered.tag == "SELECT" ==>
              |r.selectOptions| == |r.survivors| &&
              forall i :: 0 <= i < |r.survivors| ==>
                r.selectOptions[i].value == r.survivors[i].value && r.selectOptions[i].innerHTML == r.survivors[i].innerHTML
    ensures r.Filtered? && filtered.tag != "SELECT" ==> r.selectOptions == []
  {
    var text := ToLower(f.filterText);
    if |text| != 0 && |text| < f.filterLength then Ignored
    else
      var kept := Survivors(f.original, text);
      var opts := if filtered.tag == "SELECT" then seq(|kept|, i requires 0 <= i < |kept| => Copy(kept[i])) else [];
      Filtered(kept, opts, FilterEventName)
  }

  /** `clearFilterElement`. */
  function ClearFilterElement(f: FilterState): (g: FilterState)
    ensures g.filterText == "" && g.original == f.original && g.filterLength == f.filterLength
  {
    f.(filterText := "")
  }

  /** `setOriginalArray`: the new options replace the old, and the box is cleared. */
  function SetOriginalArray(f: FilterState, arr: seq<Element>): (g: FilterState)
    ensures g.original == arr && g.filterText == "" && g.filterLength == f.filterLength
  {
    ClearFilterElement(f.(original := arr))
  }

  /** After `update` hands over its new options, the next key-up (the box
      being empty) shows all of them. */
  lemma KeyupAfterReset(f: FilterState, arr: seq<Element>, filtered: Element)
    ensures Keyup(SetOriginalArray(f, arr), filtered).Filtered?
    ensures Keyup(SetOriginalArray(f, arr), filtered).survivors == arr
  {
    EmptyTextKeepsAll(arr);
  }

  /** Upper and lower case in the box make no difference. */
  lemma KeyupIgnoresCase(f: FilterState, filtered: Element)
    ensures Keyup(f, filtered) == Keyup(f.(filterText := ToLower(f.filterText)), filtered)
  {
    assert ToLower(ToLower(f.filterText)) == ToLower(f.filterText);
  }
}

=== FILE: pairs.dfy ===
/** Turning a list of name/value pairs into a map the way Java's
    `Map.put` does when called in list order: a later pair overwrites an
    earlier one with the same name. Used by the server's request split and
    by the Scriptler script constructor. */
module Pairs {

  function Names(ps: seq<(string, string)>): set<string> {
    set i | 0 <= i < |ps| :: ps[i].0
  }

  /** `ps[i]` is the last pair carrying its name. */
  predicate IsLast(ps: seq<(string, string)>, i: nat)
    requires i < |ps|
  {
    forall j :: i < j < |ps| ==> ps[j].0 != ps[i].0
  }

  function FromPairs(ps: seq<(string, string)>): (m: map<string, string>)
    decreases |ps|
    ensures m.Keys == Names(ps)
    ensures forall i :: 0 <= i < |ps| && IsLast(ps, i) ==> m[ps[i].0] == ps[i].1
  {
    if |ps| == 0 then map[]
    else
      var init := ps[..|ps| - 1];
      var last := ps[|ps| - 1];
      assert forall i :: 0 <= i < |ps| - 1 ==> init[i] == ps[i];
      assert Names(ps) == Names(init) + {last.0};
      FromPairs(init)[last.0 := last.1]
  }
}

=== FILE: proxy.dfy ===
/** `makeStaplerProxy2`: a table of server methods, each posting to the
    normalised base URL followed by the method name, and the guard that a
    generated method refuses to be called without arguments. The request
    itself is not modelled beyond the URL, crumb and arguments it would
    carry. */
module Proxy {
  import opened Wrappers
  import opened Strings

  /** The base URL with a trailing `/`, added only when missing. */
  function NormaliseBase(url: string): (r: string)
    ensures EndsWith(r, "/")
    ensures StartsWith(r, url) && |r| <= |url| + 1
    ensures r == url <==> EndsWith(url, "/")
  {
    if EndsWith(url, "/") then url else url + "/"
  }

  /** Normalising a normalised URL changes nothing. */
  lemma NormaliseIdempotent(url: string)
    ensures NormaliseBase(NormaliseBase(url)) == NormaliseBase(url)
  {
  }

  /** Where a generated method posts, and the crumb header it sends. */
  datatype Endpoint = Endpoint(url: string, crumb: string)

  /** The method table: one entry per listed name. */
  function MakeStaplerProxy2(url: string, crumb: string, methods: seq<string>): (m: map<string, Endpoint>)
    decreases |methods|
    ensures m.Keys == set x | x in methods
    ensures forall k :: k in m ==> m[k] == Endpoint(NormaliseBase(url) + k, crumb)
  {
    if |methods| == 0 then map[]
    else
      var rest := MakeStaplerProxy2(url, crumb, methods[1..]);
      assert forall x :: x in methods <==> x == methods[0] || x in methods[1..];
      rest[methods[0] := Endpoint(NormaliseBase(url) + methods[0], crumb)]
  }

  /** Different methods post to different URLs. */
  lemma EndpointsDistinct(url: string, crumb: string, methods: seq<string>, a: string, b: string)
    requires a in MakeStaplerProxy2(url, crumb, methods) && b in MakeStaplerProxy2(url, crumb, methods)
    requires a != b
    ensures MakeStaplerProxy2(url, crumb, methods)[a].url != MakeStaplerProxy2(url, crumb, methods)[b].url
  {
    var base := NormaliseBase(url);
    assert (base + a)[|base|..] == a;
    assert (base + b)[|base|..] == b;
  }

  /** The POST a generated method would send. */
  datatype Post = Post(url: string, crumb: string, args: seq<string>)

  /** Calling a generated method: at least one argument is required,
      otherwise it throws before any request is made. */
  function Invoke(e: Endpoint, args: seq<string>): (r: Result<Post>)
    ensures r.Failure? <==> |args| == 0
    ensures r.Failure? ==> r.error == NoArguments
    ensures r.Success? ==> r.value == Post(e.url, e.crumb, args)
  {
    if |args| == 0 then Failure(NoArguments) else Success(Post(e.url, e.crumb, args))
  }

  /** Every method of a generated proxy, called with arguments, posts them
      with the proxy's crumb to the normalised base followed by its name. */
  lemma InvokeGenerated(url: string, crumb: string, methods: seq<string>, name: string, args: seq<string>)
    requires name in methods && |args| > 0
    ensures name in MakeStaplerProxy2(url, crumb, methods)
    ensures Invoke(MakeStaplerProxy2(url, crumb, methods)[name], args) == Success(Post(NormaliseBase(url) + name, crumb, args))
  {
  }

  /** A proxy built for `doUpdate` posts the request text to `<base>/doUpdate`. */
  lemma DoUpdateEndpoint(url: string, crumb: string, text: string)
    ensures var m := MakeStaplerProxy2(url, crumb, ["doUpdate", "getChoicesForUI"]);
            "doUpdate" in m && Invoke(m["doUpdate"], [text]) == Success(Post(NormaliseBase(url) + "doUpdate", crumb, [text]))
  {
    var methods := ["doUpdate", "getChoicesForUI"];
    assert methods[0] == "doUpdate";
  }
}

=== FILE: radio.dfy ===
/** `fakeSelectRadioButton` of `utils`: in a radio layout only the hidden
    input next to the chosen radio button may be named `value`, so that one
    value is submitted. The document is a sequence of elements in document
    order; an element's `parent` identifies its parent node. */
module Radio {
  import opened Wrappers
  import opened Elements

  /** `$('#' + id).get(0)`: the first element in document order with that
      id. The selector `#` of an empty id is rejected before any element is
      looked at, and the function does nothing. */
  function FindById(els: seq<Element>, id: string): (r: Option<nat>)
    decreases |els|
    ensures id == "" ==> r.None?
    ensures r.Some? ==> r.value < |els| && els[r.value].id == id
    ensures r.Some? ==> forall j :: 0 <= j < r.value ==> els[j].id != id
    ensures r.None? && id != "" ==> forall j :: 0 <= j < |els| ==> els[j].id != id
  {
    if |els| == 0 || id == "" then None
    else if els[0].id == id then Some(0)
    else
      match FindById(els[1..], id)
      case None => None
      case Some(k) => Some(k + 1)
  }

  /** `e` is a child of `parent` (a node that exists) carrying class `clazz`. */
  predicate InGroup(e: Element, clazz: string, parent: Option<nat>) {
    parent.Some? && e.parent == parent && e.className == clazz
  }

  /** The name an element ends up with: every INPUT of class `clazz` is
      renamed `""`, then every child of the chosen element's parent with that
      class is renamed `value`. */
  function Renamed(e: Element, clazz: string, parent: Option<nat>): string {
    if InGroup(e, clazz, parent) then "value"
    else if e.tag == "INPUT" && e.className == clazz then ""
    else e.name
  }

  function FakeSelectRadioButton(els: seq<Element>, clazz: string, id: string): (r: seq<Element>)
    ensures |r| == |els|
    ensures forall i :: 0 <= i < |els| ==> r[i] == els[i].(name := r[i].name)
    ensures forall i :: 0 <= i < |els| && els[i].className != clazz ==> r[i] == els[i]
    ensures FindById(els, id).None? ==> r == els
    ensures FindById(els, id).Some? ==>
              var target := els[FindById(els, id).value];
              forall i :: 0 <= i < |els| && els[i].tag == "INPUT" && els[i].className == clazz ==>
                r[i].name == (if target.parent.Some? && els[i].parent == target.parent then "value" else "")
    ensures FindById(els, id).Some? ==>
              var target := els[FindById(els, id).value];
              forall i :: 0 <= i < |els| && els[i].tag != "INPUT" && els[i].className == clazz ==>
                r[i].name == (if target.parent.Some? && els[i].parent == target.parent then "value" else els[i].name)
  {
    match FindById(els, id)
    case None => els
    case Some(k) =>
      var parent := els[k].parent;
      seq(|els|, i requires 0 <= i < |els| => els[i].(name := Renamed(els[i], clazz, parent)))
  }

  /** The lookup only reads ids, and ids are never renamed. */
  lemma {:induction false} FindByIdReadsIds(els: seq<Element>, els': seq<Element>, id: string)
    requires |els'| == |els|
    requires forall i :: 0 <= i < |els| ==> els'[i].id == els[i].id
    ensures FindById(els', id) == FindById(els, id)
    decreases |els|
  {
    if |els| > 0 {
      FindByIdReadsIds(els[1..], els'[1..], id);
    }
  }

  /** Choosing the same button twice is choosing it once. */
  lemma FakeSelectIdempotent(els: seq<Element>, clazz: string, id: string)
    ensures FakeSelectRadioButton(FakeSelectRadioButton(els, clazz, id), clazz, id) == FakeSelectRadioButton(els, clazz, id)
  {
    var once := FakeSelectRadioButton(els, clazz, id);
    FindByIdReadsIds(els, once, id);
    match FindById(els, id)
    case None =>
    case Some(k) =>
      assert once[k].parent == els[k].parent;
      var twice := FakeSelectRadioButton(once, clazz, id);
      forall i | 0 <= i < |els|
        ensures twice[i] == once[i]
      {
        assert once[i] == els[i].(name := Renamed(els[i], clazz, els[k].parent));
      }
  }

  /** The two parameters of the repository's test: each a DIV holding a
      `name` input with the parameter's id and a `value` input of class
      `radio`. */
  function TwoParameters(): seq<Element> {
    [ Element("INPUT", "name", "", "parameter1", false, "", "", "parameter1", "", Some(1), [], [], None),
      Element("INPUT", "value", "", "Sao Paulo", false, "", "radio", "", "", Some(1), [], [], None),
      Element("INPUT", "name", "", "parameter2", false, "", "", "parameter2", "", Some(2), [], [], None),
      Element("INPUT", "value", "", "Rio de Janeiro", false, "", "radio", "", "", Some(2), [], [], None) ]
  }

  /** Choosing `parameter2` unnames the first radio and names the second
      one `value`; an unknown or empty id changes nothing. */
  lemma FakeSelectExamples()
    ensures FakeSelectRadioButton(TwoParameters(), "radio", "parameter2")[1].name == ""
    ensures FakeSelectRadioButton(TwoParameters(), "radio", "parameter2")[3].name == "value"
    ensures FakeSelectRadioButton(TwoParameters(), "", "empty_element") == TwoParameters()
    ensures FakeSelectRadioButton(TwoParameters(), "radio", "") == TwoParameters()
  {
    var els := TwoParameters();
    assert FindById(els, "parameter2") == Some(2) by {
      assert els[0].id != "parameter2" && els[1].id != "parameter2";
    }
    assert FindById(els, "empty_element").None? by {
      assert forall j :: 0 <= j < |els| ==> els[j].id != "empty_element";
    }
  }
}

=== FILE: referenced.dfy ===
/** `ReferencedParameter`: registration with its cascade parameter, and the
    change handler that triggers `update(false)` on that cascade parameter
    unless the change event names this very parameter. The deferral through
    `setTimeout` and the loading indicator are not modelled: the handler's
    effect is the update trace it starts. */
module Referenced {
  import opened Wrappers
  import opened Elements
  import opened Cascade

  /** A jQuery change event; `parameterName` is the extra data a trigger may carry. */
  datatype ChangeEvent = ChangeEvent(parameterName: Option<string>)

  /** Constructing a referenced parameter appends it to its cascade
      parameter's references; the cascade parameter then references it. */
  function Register(name: string, element: Option<Element>, cascade: Param): (r: (RefParam, Param))
    ensures r.0 == RefParam(name, element)
    ensures r.1.refs == cascade.refs + [r.0]
    ensures r.1.(refs := cascade.refs) == cascade
    ensures ReferencesMe(name, Some(r.1))
  {
    var me := RefParam(name, element);
    var c := Reference(cascade, me);
    assert c.refs[|cascade.refs|] == me;
    (me, c)
  }

  /** The handler skips an event that carries this parameter's own name. */
  predicate IsSelfEvent(name: string, ev: ChangeEvent) {
    ev.parameterName == Some(name)
  }

  /** The change handler: the update calls it starts, none for a self event. */
  function OnChange(name: string, ev: ChangeEvent, cascade: Param, reg: seq<Param>): (r: Trace)
    ensures IsSelfEvent(name, ev) ==> r == Trace([], None)
    ensures !IsSelfEvent(name, ev) ==>
              (r.thrown.None? <==> Updatable(cascade) && forall q :: q in Dependents(cascade.name, reg) ==> Updatable(q))
    ensures !IsSelfEvent(name, ev) && Updatable(cascade) ==>
              && 1 <= |r.calls| <= 1 + |reg|
              && r.calls[0] == Call(cascade.name, false, RequestText(cascade).value)
              && forall i :: 1 <= i < |r.calls| ==> r.calls[i].avoidRecursion
  {
    if IsSelfEvent(name, ev) then Trace([], None)
    else
      UpdateOutcome(cascade, false, reg);
      UpdateCalls(cascade, false, reg);
      PropagationBound(cascade, false, reg);
      Update(cascade, false, reg)
  }

  /** The handler's two cases: an event carrying this parameter's own name
      (a `jQuery.Event` built with `parameterName`, as the filter sends)
      starts nothing; an event from another parameter starts exactly one
      unguarded update of the cascade parameter. */
  lemma OnChangeExamples(cascade: Param, reg: seq<Param>)
    requires Updatable(cascade) && forall q :: q in Dependents(cascade.name, reg) ==> Updatable(q)
    ensures OnChange("some-name", ChangeEvent(Some("some-name")), cascade, reg) == Trace([], None)
    ensures var r := OnChange("some-name", ChangeEvent(Some("anything")), cascade, reg);
            r.thrown.None? && |r.calls| >= 1 && r.calls[0].name == cascade.name && !r.calls[0].avoidRecursion
            && forall i :: 1 <= i < |r.calls| ==> r.calls[i].avoidRecursion
  {
  }

  /** `trigger('change', data)` hands `data` to the handler as an extra
      argument and leaves the event without a `parameterName`; so an event
      triggered that way with this parameter's own name is not a self event
      and still starts the cascade parameter's update. */
  lemma TriggerDataIsNoSelfEvent(cascade: Param, reg: seq<Param>)
    requires Updatable(cascade)
    ensures !IsSelfEvent("some-name", ChangeEvent(None))
    ensures var r := OnChange("some-name", ChangeEvent(None), cascade, reg);
            |r.calls| >= 1 && r.calls[0] == Call(cascade.name, false, RequestText(cascade).value)
  {
  }
}

=== FILE: request.dfy ===
/** The request text a cascade parameter sends to the server
    (`getReferencedParametersAsText`) and the server's reading of it.
    The server's decoder is not part of this model's sources; it is
    modelled only as far as the repository's tests fix it: the text is cut
    at every separator, each segment at its first `=`, and the empty text
    reads as no parameters. */
module Request {
  import opened Wrappers
  import opened Strings
  import opened Pairs

  /** `SEPARATOR` comes from a constants module that is not part of this
      model; the server-side tests use this value. Only its being non-empty
      matters to the properties below. */
  const Separator: string := "__LESEP__"

  function Segment(name: string, value: string): string {
    name + "=" + value
  }

  /** One `name=value` segment per pair, in order, joined by `sep`. */
  function Encode(pairs: seq<(string, string)>, sep: string): (r: string)
    ensures r == "" <==> |pairs| == 0
    ensures |pairs| == 1 ==> r == Segment(pairs[0].0, pairs[0].1)
  {
    var segs := seq(|pairs|, i requires 0 <= i < |pairs| => Segment(pairs[i].0, pairs[i].1));
    assert |pairs| > 0 ==> |segs[0]| > 0;
    Join(segs, sep)
  }

  /** A segment cut at its first `=`; a segment without `=` reads as a name
      with an empty value. */
  function SplitAtEquals(seg: string): (r: (string, string))
    ensures '=' !in r.0
    ensures |r.0| + |r.1| <= |seg|
    ensures '=' in seg ==> seg == Segment(r.0, r.1)
  {
    match FirstIndexOfChar(seg, '=')
    case None => (seg, "")
    case Some(i) =>
      assert seg == seg[..i] + "=" + seg[i + 1..];
      (seg[..i], seg[i + 1..])
  }

  /** The server's reading of a request text: cut at every separator, then
      each segment at its first `=`. */
  function Decode(text: string, sep: string): (r: seq<(string, string)>)
    requires |sep| > 0
    ensures text == "" <==> r == []
    ensures text != "" ==> |r| == |Pieces(text, sep)|
    ensures forall i :: 0 <= i < |r| ==> '=' !in r[i].0
  {
    if text == "" then []
    else
      var segs := Pieces(text, sep);
      seq(|segs|, i requires 0 <= i < |segs| => SplitAtEquals(segs[i]))
  }

  /** The parameter map the server keeps: later duplicates win. */
  function DecodeMap(text: string, sep: string): (m: map<string, string>)
    requires |sep| > 0
    ensures text == "" ==> m == map[]
  {
    FromPairs(Decode(text, sep))
  }

  /** A pair the server can read back: its name has no `=` and its segment
      is not cut early by a separator match. */
  predicate Recoverable(p: (string, string), sep: string) {
    '=' !in p.0 && Separable(Segment(p.0, p.1), sep)
  }

  /** Cutting a segment at its first `=` recovers a name without `=`. */
  lemma SplitSegment(name: string, value: string)
    requires '=' !in name
    ensures SplitAtEquals(Segment(name, value)) == (name, value)
  {
    var seg := Segment(name, value);
    assert seg[..|name|] == name;
    assert forall j :: 0 <= j < |name| ==> seg[j] == name[j];
    assert seg[|name|] == '=';
    var k := FirstIndexOfChar(seg, '=').value;
    assert forall j :: 0 <= j < k ==> seg[..k][j] == seg[j];
    assert k == |name|;
    assert seg[..k] == name;
    assert seg[k + 1..] == value;
  }

  lemma JoinNonEmpty(parts: seq<string>, sep: string)
    requires |parts| > 0 && parts[0] != ""
    ensures Join(parts, sep) != ""
  {
    if |parts| > 1 {
      assert Join(parts, sep) == parts[0] + sep + Join(parts[1..], sep);
    }
  }

  /** Decoding the request text gives back the pairs it was built from. */
  lemma DecodeEncode(pairs: seq<(string, string)>, sep: string)
    requires |sep| > 0
    requires forall i :: 0 <= i < |pairs| ==> Recoverable(pairs[i], sep)
    ensures Decode(Encode(pairs, sep), sep) == pairs
  {
    var segs := seq(|pairs|, i requires 0 <= i < |pairs| => Segment(pairs[i].0, pairs[i].1));
    if |pairs| > 0 {
      JoinNonEmpty(segs, sep);
      PiecesOfJoin(segs, sep);
      forall i | 0 <= i < |pairs|
        ensures SplitAtEquals(segs[i]) == pairs[i]
      {
        SplitSegment(pairs[i].0, pairs[i].1);
      }
    }
  }

  /** Keeping names free of `=` and values free of the separator is not
      enough: the separator starts and ends with `__`, so a value ending in
      `__LESEP` moves the cut. */
  lemma SeparatorFreeIsNotEnough()
    ensures var pairs := [("a", "x__LESEP"), ("b", "y")];
            && (forall i :: 0 <= i < |pairs| ==> '=' !in pairs[i].0)
            && (forall i :: 0 <= i < |pairs| ==> !Contains(pairs[i].0, Separator) && !Contains(pairs[i].1, Separator))
            && Decode(Encode(pairs, Separator), Separator) != pairs
  {
    var pairs := [("a", "x__LESEP"), ("b", "y")];
    var text := Encode(pairs, Separator);
    var segs := seq(|pairs|, i requires 0 <= i < |pairs| => Segment(pairs[i].0, pairs[i].1));
    assert segs[0] == "a=x__LESEP" && segs[1] == "b=y";
    assert segs == ["a=x__LESEP", "b=y"];
    assert text == "a=x__LESEP" + Separator + Join(["b=y"], Separator);
    assert OccursAt(text, 3, Separator) by {
      assert text[3..12] == Separator;
    }
    var cut := IndexOfFrom(text, Separator, 0);
    assert cut.Some? && cut.value <= 3;
    var first := Pieces(text, Separator)[0];
    assert |first| <= 3;
    var decoded := Decode(text, Separator);
    assert |decoded[0].1| <= 3;
  }

  /** A segment without the separator's first character is separable. */
  lemma SeparableWithoutLead(seg: string, sep: string)
    requires |sep| > 0 && sep[0] !in seg
    ensures Separable(seg, sep)
  {
  }

  /** The pairs of the server-side test: three parameters, the last with an empty value. */
  function ThreePairs(): seq<(string, string)> {
    [("param001", "A"), ("param002", "B"), ("param003", "")]
  }

  /** Three parts join with the separator between each two. */
  lemma JoinThree(a: string, b: string, c: string, sep: string)
    ensures Join([a, b, c], sep) == a + sep + b + sep + c
  {
    assert [b, c][1..] == [c];
    assert Join([b, c], sep) == b + sep + c;
    assert [a, b, c][1..] == [b, c];
  }

  /** The three segments joined by the separator spell the test's text. */
  lemma ThreeLiteral()
    ensures "param001=A" + Separator + "param002=B" + Separator + "param003=" == "param001=A__LESEP__param002=B__LESEP__param003="
  {
  }

  /** The test's pairs encode as the join of their three segments. */
  lemma ThreeSegments()
    ensures Encode(ThreePairs(), Separator) == Join(["param001=A", "param002=B", "param003="], Separator)
  {
    var pairs := ThreePairs();
    var segs := seq(|pairs|, i requires 0 <= i < |pairs| => Segment(pairs[i].0, pairs[i].1));
    assert segs[0] == "param001=A" && segs[1] == "param002=B" && segs[2] == "param003=";
    assert segs == ["param001=A", "param002=B", "param003="];
  }

  lemma ThreePairsEncoding()
    ensures Encode(ThreePairs(), Separator) == "param001=A__LESEP__param002=B__LESEP__param003="
  {
    ThreeSegments();
    JoinThree("param001=A", "param002=B", "param003=", Separator);
    ThreeLiteral();
  }

  lemma ThreePairsDecoding()
    ensures Decode("param001=A__LESEP__param002=B__LESEP__param003=", Separator) == ThreePairs()
  {
    var pairs := ThreePairs();
    forall i | 0 <= i < |pairs|
      ensures Recoverable(pairs[i], Separator)
    {
      SeparableWithoutLead(Segment(pairs[i].0, pairs[i].1), Separator);
    }
    DecodeEncode(pairs, Separator);
    ThreePairsEncoding();
  }

  lemma ThreePairsMap()
    ensures FromPairs(ThreePairs()) == map["param001" := "A", "param002" := "B", "param003" := ""]
  {
    var pairs := ThreePairs();
    var m := FromPairs(pairs);
    assert IsLast(pairs, 0) && IsLast(pairs, 1) && IsLast(pairs, 2);
    assert m["param001"] == "A" && m["param002"] == "B" && m["param003"] == "";
    assert m.Keys == {"param001", "param002", "param003"} by {
      assert pairs[0].0 == "param001" && pairs[1].0 == "param002" && pairs[2].0 == "param003";
      assert Names(pairs) == {pairs[0].0, pairs[1].0, pairs[2].0};
    }
  }

  /** The server-side test: the text the client would send for three
      parameters decodes to the three of them. */
  lemma ThreeParametersExample(text: string)
    requires text == "param001=A__LESEP__param002=B__LESEP__param003="
    ensures DecodeMap(text, Separator) == map["param001" := "A", "param002" := "B", "param003" := ""]
  {
    ThreePairsDecoding();
    ThreePairsMap();
  }

  /** The server-side test of a value containing `=`: it is kept whole. */
  lemma ValueWithEqualsExample()
    ensures Decode("LIST=A=1", Separator) == [("LIST", "A=1")]
  {
    var pairs := [("LIST", "A=1")];
    SeparableWithoutLead(Segment("LIST", "A=1"), Separator);
    DecodeEncode(pairs, Separator);
    var segs := seq(|pairs|, i requires 0 <= i < |pairs| => Segment(pairs[i].0, pairs[i].1));
    assert segs[0] == "LIST=A=1";
    assert segs == ["LIST=A=1"];
  }
}

=== FILE: scriptler.dfy ===
/** `ScriptlerScript`: a script id with its parameter map, and the map of
    variables its evaluation hands to Groovy. The system environment, the
    macro expansion of `Util.replaceMacro` and the Groovy evaluation are
    not part of this model and enter as parameters. */
module Scriptler {
  import opened Wrappers
  import opened Pairs

  datatype ScriptlerScript = ScriptlerScript(scriptId: string, parameters: map<string, string>)

  /** The constructor: the parameter list (absent for `null`) becomes a
      map, a later parameter of the same name replacing an earlier one. */
  function NewScriptlerScript(scriptId: string, params: Option<seq<(string, string)>>): (s: ScriptlerScript)
    ensures s.scriptId == scriptId
    ensures params.None? ==> s.parameters == map[]
    ensures params.Some? ==> s.parameters.Keys == Names(params.value)
    ensures params.Some? ==> forall i :: 0 <= i < |params.value| && IsLast(params.value, i) ==>
              s.parameters[params.value[i].0] == params.value[i].1
  {
    ScriptlerScript(scriptId, if params.None? then map[] else FromPairs(params.value))
  }

  /** Whether the UI sent any parameter (`parameters != null && size() > 0`). */
  predicate HasUi(ui: Option<map<string, string>>) {
    ui.Some? && |ui.value| > 0
  }

  /** The variables of an evaluation. With UI parameters: the environment,
      overlaid by the UI parameters, overlaid by the script's parameters
      each macro-expanded against the UI parameters. Without: the
      environment overlaid by the script's parameters as they are. */
  function EvaledParameters(s: ScriptlerScript, env: map<string, string>, ui: Option<map<string, string>>,
                            expand: (string, map<string, string>) -> string): (r: map<string, string>)
    ensures HasUi(ui) ==> r.Keys == env.Keys + ui.value.Keys + s.parameters.Keys
    ensures !HasUi(ui) ==> r.Keys == env.Keys + s.parameters.Keys
  {
    if HasUi(ui) then
      var expanded := map k | k in s.parameters :: expand(s.parameters[k], ui.value);
      (env + ui.value) + expanded
    else env + s.parameters
  }

  /** `eval(project, parameters)`: the script run on those variables. */
  function Eval<R>(s: ScriptlerScript, env: map<string, string>, ui: Option<map<string, string>>,
                   expand: (string, map<string, string>) -> string, run: map<string, string> -> R): (r: R)
    ensures !HasUi(ui) ==> r == run(env + s.parameters)
  {
    run(EvaledParameters(s, env, ui, expand))
  }

  /** `eval(project)` is `eval(project, null)`, and a `null` UI map behaves
      like an empty one: the script's parameters go in unexpanded. */
  lemma NoUiParameters<R>(s: ScriptlerScript, env: map<string, string>, expand: (string, map<string, string>) -> string,
                          run: map<string, string> -> R)
    ensures Eval(s, env, None, expand, run) == Eval(s, env, Some(map[]), expand, run)
    ensures EvaledParameters(s, env, None, expand) == env + s.parameters
  {
  }

  /** The value each variable gets: a script parameter wins (expanded
      against the UI parameters when there are any), then a UI parameter,
      then the environment. */
  lemma Precedence(s: ScriptlerScript, env: map<string, string>, ui: Option<map<string, string>>,
                   expand: (string, map<string, string>) -> string, k: string)
    ensures k in s.parameters && HasUi(ui) ==> EvaledParameters(s, env, ui, expand)[k] == expand(s.parameters[k], ui.value)
    ensures k in s.parameters && !HasUi(ui) ==> EvaledParameters(s, env, ui, expand)[k] == s.parameters[k]
    ensures k !in s.parameters && HasUi(ui) && k in ui.value ==> EvaledParameters(s, env, ui, expand)[k] == ui.value[k]
    ensures k !in s.parameters && (!HasUi(ui) || k !in ui.value) ==>
              (k in EvaledParameters(s, env, ui, expand) <==> k in env) &&
              (k in env ==> EvaledParameters(s, env, ui, expand)[k] == env[k])
  {
    var r := EvaledParameters(s, env, ui, expand);
    if HasUi(ui) {
      var expanded := map k | k in s.parameters :: expand(s.parameters[k], ui.value);
      assert r == (env + ui.value) + expanded;
    } else {
      assert r == env + s.parameters;
    }
  }
}

=== FILE: sequences.dfy ===
/** Order-keeping deletion on sequences, shared by the registry walk of
    `update` and the option filter. */
module Sequences {

  /** `xs` can be obtained from `ys` by deleting elements. */
  predicate Subsequence<T(==)>(xs: seq<T>, ys: seq<T>)
    decreases |ys|
  {
    |xs| == 0 || (|ys| > 0 && ((xs[0] == ys[0] && Subsequence(xs[1..], ys[1..])) || Subsequence(xs, ys[1..])))
  }

  /** Keeping the head of `ys` extends a subsequence of its tail. */
  lemma SubsequenceKeep<T>(x: T, xs: seq<T>, ys: seq<T>)
    requires Subsequence(xs, ys)
    ensures Subsequence([x] + xs, [x] + ys)
  {
    assert ([x] + xs)[1..] == xs;
    assert ([x] + ys)[1..] == ys;
  }

  /** Dropping the head of `ys` keeps a subsequence of its tail. */
  lemma SubsequenceDrop<T>(x: T, xs: seq<T>, ys: seq<T>)
    requires Subsequence(xs, ys)
    ensures Subsequence(xs, [x] + ys)
  {
    assert ([x] + ys)[1..] == ys;
  }
}

=== FILE: strings.dfy ===
/** The few string operations of JavaScript and Java that the model needs,
    each defined once over `seq<char>`, with the facts the other modules
    rely on: splitting and joining are inverse, the leftmost-match split on a
    multi-character separator recovers the joined parts exactly when no
    separator match straddles a boundary, and replacing the first
    occurrence of a character touches that one position only. */
module Strings {
  import opened Wrappers

  // ---------------------------------------------------------------------
  // Prefixes, suffixes and occurrences

  predicate StartsWith(s: string, p: string) {
    |p| <= |s| && s[..|p|] == p
  }

  /** `String.prototype.endsWith`. */
  predicate EndsWith(s: string, p: string) {
    |p| <= |s| && s[|s| - |p|..] == p
  }

  /** `t` occurs in `s` starting at index `i`. */
  predicate OccursAt(s: string, i: nat, t: string) {
    i + |t| <= |s| && s[i..i + |t|] == t
  }

  /** Substring containment (`indexOf(t) > -1`). */
  predicate Contains(s: string, t: string) {
    exists i: nat :: i <= |s| && OccursAt(s, i, t)
  }

  /** The least index at or after `k` where `t` occurs in `s`. */
  function IndexOfFrom(s: string, t: string, k: nat): (r: Option<nat>)
    requires k <= |s|
    decreases |s| - k
    ensures r.Some? ==> k <= r.value <= |s| && OccursAt(s, r.value, t)
    ensures r.Some? ==> forall j: nat :: k <= j < r.value ==> !OccursAt(s, j, t)
    ensures r.None? ==> forall j: nat :: k <= j <= |s| ==> !OccursAt(s, j, t)
  {
    if OccursAt(s, k, t) then Some(k)
    else if k == |s| then None
    else IndexOfFrom(s, t, k + 1)
  }

  /** An occurrence that ends inside `a` is an occurrence in `a + b`, and conversely. */
  lemma OccursAtPrefix(a: string, b: string, j: nat, t: string)
    requires j + |t| <= |a|
    ensures OccursAt(a + b, j, t) <==> OccursAt(a, j, t)
  {
    assert (a + b)[j..j + |t|] == a[j..j + |t|];
  }

  // ---------------------------------------------------------------------
  // Joining and splitting

  /** `Array.prototype.join(sep)`. */
  function Join(parts: seq<string>, sep: string): string
    decreases |parts|
  {
    if |parts| == 0 then ""
    else if |parts| == 1 then parts[0]
    else parts[0] + sep + Join(parts[1..], sep)
  }

  /** Number of occurrences of the character `c` in `s`. */
  function Count(s: string, c: char): nat
    decreases |s|
  {
    if |s| == 0 then 0
    else (if s[0] == c then 1 else 0) + Count(s[1..], c)
  }

  /** `String.prototype.split(c)` for a one-character separator: one piece
      more than there are separators, none containing the separator. */
  function SplitOnChar(s: string, c: char): (r: seq<string>)
    decreases |s|
    ensures |r| == Count(s, c) + 1
    ensures forall k :: 0 <= k < |r| ==> c !in r[k]
  {
    if |s| == 0 then [""]
    else
      var rest := SplitOnChar(s[1..], c);
      if s[0] == c then [""] + rest
      else [[s[0]] + rest[0]] + rest[1..]
  }

  lemma {:induction false} JoinSplitOnChar(s: string, c: char)
    ensures Join(SplitOnChar(s, c), [c]) == s
    decreases |s|
  {
    if |s| > 0 {
      var rest := SplitOnChar(s[1..], c);
      JoinSplitOnChar(s[1..], c);
      assert s == [s[0]] + s[1..];
      if s[0] != c {
        var r := [[s[0]] + rest[0]] + rest[1..];
        assert r[1..] == rest[1..];
        if |rest| > 1 {
          assert Join(rest, [c]) == rest[0] + [c] + Join(rest[1..], [c]);
        }
      }
    }
  }

  /** The parts of `s` when it is cut at every leftmost, non-overlapping
      occurrence of the non-empty separator `sep` (Java's and JavaScript's
      literal-string split, without dropping trailing empty parts). */
  function Pieces(s: string, sep: string): (r: seq<string>)
    requires |sep| > 0
    decreases |s|
    ensures |r| >= 1
  {
    match IndexOfFrom(s, sep, 0)
    case None => [s]
    case Some(i) => [s[..i]] + Pieces(s[i + |sep|..], sep)
  }

  /** No occurrence of `sep` starts inside `seg` when `seg` is followed by
      `sep`: the first match in `seg + sep` is the appended one. This is
      stronger than `sep` not occurring in `seg` whenever a proper prefix of
      `sep` is also a suffix of it. */
  predicate Separable(seg: string, sep: string) {
    forall j: nat :: j < |seg| ==> !OccursAt(seg + sep, j, sep)
  }

  /** A separable part has no occurrence of the separator of its own. */
  lemma SeparableHasNoSeparator(seg: string, sep: string)
    requires |sep| > 0 && Separable(seg, sep)
    ensures forall j: nat :: j <= |seg| ==> !OccursAt(seg, j, sep)
  {
    forall j: nat | j <= |seg| && OccursAt(seg, j, sep)
      ensures false
    {
      OccursAtPrefix(seg, sep, j, sep);
    }
  }

  /** Splitting the join of separable parts recovers the parts. */
  lemma {:induction false} PiecesOfJoin(parts: seq<string>, sep: string)
    requires |sep| > 0 && |parts| > 0
    requires forall k :: 0 <= k < |parts| ==> Separable(parts[k], sep)
    ensures Pieces(Join(parts, sep), sep) == parts
    decreases |parts|
  {
    var p := parts[0];
    if |parts| == 1 {
      SeparableHasNoSeparator(p, sep);
      assert IndexOfFrom(p, sep, 0).None?;
    } else {
      var rest := Join(parts[1..], sep);
      var s := p + sep + rest;
      assert s == (p + sep) + rest;
      forall j: nat | j < |p|
        ensures !OccursAt(s, j, sep)
      {
        if j + |sep| <= |p + sep| {
          OccursAtPrefix(p + sep, rest, j, sep);
        }
      }
      assert s[|p|..|p| + |sep|] == sep;
      assert OccursAt(s, |p|, sep);
      var i := IndexOfFrom(s, sep, 0);
      assert i == Some(|p|);
      assert s[..|p|] == p;
      assert s[|p| + |sep|..] == rest;
      PiecesOfJoin(parts[1..], sep);
    }
  }

  /** The index of the first `c` in `s`, if any. */
  function FirstIndexOfChar(s: string, c: char): (r: Option<nat>)
    decreases |s|
    ensures r.Some? ==> r.value < |s| && s[r.value] == c && c !in s[..r.value]
    ensures r.None? ==> c !in s
  {
    if |s| == 0 then None
    else if s[0] == c then Some(0)
    else
      match FirstIndexOfChar(s[1..], c)
      case None => None
      case Some(k) =>
        assert s[..k + 1] == [s[0]] + s[1..][..k];
        Some(k + 1)
  }

  // ---------------------------------------------------------------------
  // Character-level rewriting

  /** `String.prototype.replace(a, b)` with a one-character string pattern:
      only the first occurrence is replaced. */
  function ReplaceFirst(s: string, a: char, b: char): (r: string)
    decreases |s|
    ensures |r| == |s|
  {
    if |s| == 0 then ""
    else if s[0] == a then [b] + s[1..]
    else [s[0]] + ReplaceFirst(s[1..], a, b)
  }

  /** The first occurrence is replaced and every other position is kept. */
  lemma {:induction false} ReplaceFirstSpec(s: string, a: char, b: char)
    ensures a !in s ==> ReplaceFirst(s, a, b) == s
    ensures a in s ==>
      var k := FirstIndexOfChar(s, a).value;
      ReplaceFirst(s, a, b)[k] == b &&
      forall j :: 0 <= j < |s| && j != k ==> ReplaceFirst(s, a, b)[j] == s[j]
    decreases |s|
  {
    if |s| > 0 && s[0] != a {
      ReplaceFirstSpec(s[1..], a, b);
      assert a in s ==> a in s[1..];
    }
  }

  /** Replacing in a concatenation acts on the first part that holds `a`. */
  lemma {:induction false} ReplaceFirstAppend(x: string, y: string, a: char, b: char)
    ensures a !in x ==> ReplaceFirst(x + y, a, b) == x + ReplaceFirst(y, a, b)
    ensures a in x ==> ReplaceFirst(x + y, a, b) == ReplaceFirst(x, a, b) + y
    decreases |x|
  {
    if |x| > 0 {
      assert (x + y)[1..] == x[1..] + y;
      ReplaceFirstAppend(x[1..], y, a, b);
    } else {
      assert x + y == y;
    }
  }

  /** `/pat$/` replaced by `rep` with `String.prototype.replace`. */
  function ReplaceSuffix(s: string, pat: string, rep: string): string {
    if EndsWith(s, pat) then s[..|s| - |pat|] + rep else s
  }

  predicate IsAsciiUpper(c: char) {
    'A' <= c <= 'Z'
  }

  function LowerChar(c: char): char {
    if IsAsciiUpper(c) then (c as int + 32) as char else c
  }

  /** `String.prototype.toLowerCase`, restricted to ASCII letters. */
  function ToLower(s: string): (r: string)
    ensures |r| == |s|
    ensures forall i :: 0 <= i < |s| ==> r[i] == LowerChar(s[i])
  {
    seq(|s|, i requires 0 <= i < |s| => LowerChar(s[i]))
  }

  /** The white space `String.prototype.trim` removes (its ASCII and
      special members; other Unicode space separators are not modelled). */
  predicate IsWhite(c: char) {
    c == ' ' || c == '\t' || c == '\n' || c == '\r' || c == '\U{000B}' || c == '\U{000C}'
    || c == '\U{00A0}' || c == '\U{FEFF}' || c == '\U{2028}' || c == '\U{2029}'
  }

  /** No white space at either end. */
  predicate Trimmed(s: string) {
    |s| == 0 || (!IsWhite(s[0]) && !IsWhite(s[|s| - 1]))
  }

  function TrimStart(s: string): (r: string)
    decreases |s|
    ensures |r| <= |s| && r == s[|s| - |r|..]
    ensures forall i :: 0 <= i < |s| - |r| ==> IsWhite(s[i])
    ensures |r| > 0 ==> !IsWhite(r[0])
  {
    if |s| > 0 && IsWhite(s[0]) then TrimStart(s[1..]) else s
  }

  function TrimEnd(s: string): (r: string)
    decreases |s|
    ensures |r| <= |s| && r == s[..|r|]
    ensures forall i :: |r| <= i < |s| ==> IsWhite(s[i])
    ensures |r| > 0 ==> !IsWhite(r[|r| - 1])
  {
    if |s| > 0 && IsWhite(s[|s| - 1]) then TrimEnd(s[..|s| - 1]) else s
  }

  /** `String.prototype.trim`: the longest slice without white space at
      either end, whatever was cut off being white space only. */
  function Trim(s: string): (r: string)
    ensures |r| == 0 || (!IsWhite(r[0]) && !IsWhite(r[|r| - 1]))
    ensures exists i, j ::
              && 0 <= i <= j <= |s| && r == s[i..j]
              && (forall k :: 0 <= k < i ==> IsWhite(s[k]))
              && (forall k :: j <= k < |s| ==> IsWhite(s[k]))
  {
    var a := TrimStart(s);
    var r := TrimEnd(a);
    var i := |s| - |a|;
    assert r == s[i..i + |r|];
    r
  }

  // ---------------------------------------------------------------------
  // Numbers

  function Digit(d: nat): char
    requires d < 10
  {
    "0123456789"[d]
  }

  predicate IsDigit(c: char) {
    '0' <= c <= '9'
  }

  /** Decimal rendering of a natural number, as JavaScript's `'' + n`. */
  function NatToString(n: nat): (r: string)
    decreases n
    ensures |r| > 0
    ensures forall k :: 0 <= k < |r| ==> IsDigit(r[k])
  {
    if n < 10 then [Digit(n)] else NatToString(n / 10) + [Digit(n % 10)]
  }
}

=== FILE: wrappers.dfy ===
/** Failure-carrying datatypes shared by every module of the model.
    `Option` stands for JavaScript's `undefined`/`null` (a missing element,
    a missing attribute), `Result` for an operation that may throw. */
module Wrappers {

  datatype Option<+T> = None | Some(value: T) {

    /** The value, or `default` when there is none (JavaScript's `x || default`). */
    function GetOr(default: T): T {
      match this
      case Some(v) => v
      case None => default
    }
  }

  /** What a thrown `Error` says, reduced to its cause. */
  datatype Error =
    | MissingElement(paramName: string)   // `$element.get(0)` was undefined
    | UndefinedField(field: string)        // a property read on `undefined` (a `TypeError`)
    | NoArguments                          // a proxy method called with no argument

  datatype Result<+T> = Success(value: T) | Failure(error: Error) {

    predicate IsFailure() {
      Failure?
    }

    function PropagateFailure<U>(): Result<U>
      requires Failure?
    {
      Failure(error)
    }

    function Extract(): T
      requires Success?
    {
      value
    }
  }
}
